=== FILE: README.md ===
# Sign Android APKs build step, modelled in Dafny

This project models `SignApksBuilder`, the Jenkins build step of the Android
signing plugin. The step finds unsigned APKs in a workspace by a list of Ant
globs and runs zipalign on each one. It then signs each APK with a key from a
key store credential, and archives the unsigned and/or signed APKs under names
that carry the key store id and the alias.

The model covers these parts of the step:

- **Glob list** (`SelectionGlobs`): `getSelectionGlobs`, which splits the `apksToSign` setting at commas, trims each piece and drops the blank ones.
- **Configuration** (`BuilderConfig`):
  - the builder's fields and its defaults
  - the `stripToNull` setters for the Android home and the zipalign path
  - the deprecated list constructor
  - `readResolve`
  - `setPropertiesFromOldSigningEntry`
  - `isMigrated`
  - the split of a pre-2.1 multi-entry builder into one builder per entry
- **`perform`** (`BuildStep`), a pure function. It returns the trace of effects the step has on the world and how it ended: skipped, completed, or aborted with a failure. The steps it models, in order:
  - the skip after an earlier failure
  - the delegation of a legacy builder
  - the creation of the zipalign directory
  - reading the key material
  - selecting the APKs into a path-ordered set without repeats
  - for each APK: create the temporary file, align, check existence, create the parent directory, sign, and record it in the insertion-ordered manifest
  - the single archive call at the end
- **`SignApkCallable.invoke`** (`SignApk`): deletes a stale signed APK, then asks the signer once, with one signer configuration and v1, v2 and v3 signing on.
- **Effects** (`Effects`): the effect trace.
- **Supporting Java semantics**:
  - `ArchiveManifest`: a `LinkedHashMap`
  - `PathSet`: a `TreeSet` ordered by remote path
  - `JavaStrings`: `trim`, `strip`, a split at a bare separator character, and rendering `null` in string concatenation
- **Properties** (`PerformProperties`): what a run archives, what each failure stops before, how archive names are kept apart, why selection does not depend on glob order, and how a legacy builder is carried out.
- **Test-suite cases** (`Scenarios`): cases the step's test suite checks, derived from the general statements.

Everything the step asks of the outside world is a field of `BuildStep.World` or `SignApk.SignerWorld`, given as a total function. That covers:

- the credential store and key reader
- the Ant glob matcher
- `FilePath` queries
- the mapping strategy
- `ZipalignTool.commandFor`
- the exit code of a launched process
- `File.isFile`/`File.delete`
- the apksig signer

The step's own decisions are modelled branch for branch.

## Model

Source paths are relative to the repository root. `SignApksBuilder.java` stands for
`src/main/java/org/jenkinsci/plugins/androidsigning/SignApksBuilder.java` in the
text below; the table gives full paths.

| member | source | states |
|---|---|---|
| SelectionGlobs.GetSelectionGlobs | src/main/java/org/jenkinsci/plugins/androidsigning/SignApksBuilder.java:89-99 | every glob handed out is non-empty, holds no comma, and has no character at or below U+0020 at either end; there is at most one glob per comma-separated piece |
| SelectionGlobs.CleanGlobs | src/main/java/org/jenkinsci/plugins/androidsigning/SignApksBuilder.java:91-97 | trimming the pieces and keeping the non-blank ones yields only clean globs, never more than there were pieces |
| SelectionGlobs.GlobsOfCommaJoin | src/main/java/org/jenkinsci/plugins/androidsigning/SignApksBuilder.java:89-99 | the globs of `a,b` are the globs of `a` followed by those of `b`: input order is kept and pieces are independent |
| SelectionGlobs.GlobsOfOnePiece | src/main/java/org/jenkinsci/plugins/androidsigning/SignApksBuilder.java:92-96 | a comma-free text gives its trimmed self as the one glob, or no glob when it is blank |
| SelectionGlobs.GlobsIgnoreLeadingBlank | src/main/java/org/jenkinsci/plugins/androidsigning/SignApksBuilder.java:90-93 | a blank in front of the list (and so after a comma) changes no glob |
| SelectionGlobs.GlobsOfCleanGlob | src/main/java/org/jenkinsci/plugins/androidsigning/SignApksBuilder.java:89-99 | a clean glob on its own parses to exactly itself |
| SelectionGlobs.GlobsRoundTrip | src/main/java/org/jenkinsci/plugins/androidsigning/SignApksBuilder.java:89-99 | clean globs joined with `, ` parse back to the same list in the same order |
| SelectionGlobs.GlobsIdempotent | src/main/java/org/jenkinsci/plugins/androidsigning/SignApksBuilder.java:89-99 | re-parsing the parsed globs, written back as a list, gives them again |
| SelectionGlobs.TrimIgnoresLeadingBlank | src/main/java/org/jenkinsci/plugins/androidsigning/SignApksBuilder.java:93 | `trim` removes an extra blank in front and otherwise gives the same result |
| SelectionGlobs.Trim | src/main/java/org/jenkinsci/plugins/androidsigning/SignApksBuilder.java:93 | `String.trim` removes the characters at or below U+0020 at both ends; `JavaStrings.Strip` and `JavaStrings.StripUnique` characterise the result |
| JavaStrings.SplitOnJoins | src/main/java/org/jenkinsci/plugins/androidsigning/SignApksBuilder.java:90 | the bare-comma split the glob parser is built on loses nothing: its pieces, joined back with the separator, give the input |
| JavaStrings.SplitOnConcat | src/main/java/org/jenkinsci/plugins/androidsigning/SignApksBuilder.java:90 | in the bare-comma split, splitting `a + sep + b` gives the pieces of `a` followed by the pieces of `b` |
| JavaStrings.SplitOnNoSeparator | src/main/java/org/jenkinsci/plugins/androidsigning/SignApksBuilder.java:90 | in the bare-comma split, a string without the separator is one piece |
| JavaStrings.SplitOn | src/main/java/org/jenkinsci/plugins/androidsigning/SignApksBuilder.java:90 | the bare-comma split yields at least one piece and no piece holds the separator; `SplitOnJoins` makes it the inverse of joining |
| JavaStrings.Strip | src/main/java/org/jenkinsci/plugins/androidsigning/SignApksBuilder.java:162 | the result sits inside the input with only stripped characters around it, has none at either end, and is empty exactly when the input is all strippable |
| JavaStrings.StripUnique | src/main/java/org/jenkinsci/plugins/androidsigning/SignApksBuilder.java:162 | any unpadded core with only strippable characters around it is the result of stripping |
| JavaStrings.StripIdempotent | src/main/java/org/jenkinsci/plugins/androidsigning/SignApksBuilder.java:162 | stripping twice is stripping once |
| JavaStrings.Render | src/main/java/org/jenkinsci/plugins/androidsigning/SignApksBuilder.java:313 | a present string renders as itself and null as `null`, as string concatenation does; `PerformProperties.NamespacesDisjoint` shows the rendering keeps namespaces apart |
| BuilderConfig.StripToNull | src/main/java/org/jenkinsci/plugins/androidsigning/SignApksBuilder.java:162 | the result is null exactly for null or all-whitespace input, and otherwise is the input stripped of `Character.isWhitespace` characters at both ends, never blank |
| BuilderConfig.StripToNullIdempotent | src/main/java/org/jenkinsci/plugins/androidsigning/SignApksBuilder.java:171 | normalising a normalised value changes nothing |
| BuilderConfig.SetAndroidHome | src/main/java/org/jenkinsci/plugins/androidsigning/SignApksBuilder.java:160-163 | the Android home becomes null for blank input and the stripped text otherwise; no other field changes |
| BuilderConfig.SetZipalignPath | src/main/java/org/jenkinsci/plugins/androidsigning/SignApksBuilder.java:169-172 | the zipalign path becomes null for blank input and the stripped text otherwise; no other field changes |
| BuilderConfig.SettersAreStable | src/main/java/org/jenkinsci/plugins/androidsigning/SignApksBuilder.java:160-176 | passing the getters' values back to the setters leaves the builder unchanged |
| BuilderConfig.NewBuilder | src/main/java/org/jenkinsci/plugins/androidsigning/SignApksBuilder.java:101-127 | a new builder uses the sibling mapping, archives signed and not unsigned APKs, aligns, has every string unset, and is migrated |
| BuilderConfig.ReadResolve | src/main/java/org/jenkinsci/plugins/androidsigning/SignApksBuilder.java:129-134 | a builder read back without a mapping gets the builder-dir mapping; one with a mapping, and every other field, is left as it was |
| BuilderConfig.FromOldSigningEntry | src/main/java/org/jenkinsci/plugins/androidsigning/SignApksBuilder.java:136-143 | the builder takes the entry's key store, alias, globs and archive flags, and the builder-dir mapping; tool locations and `skipZipalign` are kept |
| BuilderConfig.LegacyBuilder | src/main/java/org/jenkinsci/plugins/androidsigning/SignApksBuilder.java:113-122 | no entry gives the default builder, one entry is copied with the builder-dir mapping, and more than one is refused with the constructor's message |
| BuilderConfig.SingleEntryBuilders | src/main/java/org/jenkinsci/plugins/androidsigning/SignApksBuilder.java:77-87 | one migrated builder per entry, in entry order, each carrying its entry, the builder-dir mapping, zipalign on, and the old builder's tool locations passed through the setters |
| BuilderConfig.SplitMatchesLegacyConstructor | src/main/java/org/jenkinsci/plugins/androidsigning/SignApksBuilder.java:77-87 | each split builder is what the one-entry constructor makes of its entry; the old builder's tool locations come through unchanged when they were already normalised by the setters |
| BuilderConfig.IsMigrated | src/main/java/org/jenkinsci/plugins/androidsigning/SignApksBuilder.java:151-153 | a builder is migrated when its legacy entry list is null or empty; `BuilderConfig.MigratedExactlyWhenNothingToSplit` relates this to the split |
| BuilderConfig.MigratedExactlyWhenNothingToSplit | src/main/java/org/jenkinsci/plugins/androidsigning/SignApksBuilder.java:77-87 | a builder is migrated exactly when it has no entries to split into single-entry builders, and every builder the split produces is migrated |
| BuildStep.IsIntermediateFailure | src/main/java/org/jenkinsci/plugins/androidsigning/SignApksBuilder.java:145-149 | a run counts as failed exactly when its result is FAILURE, NOT_BUILT or ABORTED; no result and SUCCESS or UNSTABLE do not |
| BuildStep.Perform | src/main/java/org/jenkinsci/plugins/androidsigning/SignApksBuilder.java:242-254 | after an earlier failure the step does nothing at all; otherwise it is never skipped |
| BuildStep.PerformMigrated | src/main/java/org/jenkinsci/plugins/androidsigning/SignApksBuilder.java:284-380 | the first effect creates the zipalign directory; the archive call happens only as the last effect of a completed run, with a non-empty manifest; with `skipZipalign` no zipalign process is launched; which zipalign runs is stated by `PerformProperties.ZipalignFromToolLocations` |
| BuildStep.Select | src/main/java/org/jenkinsci/plugins/androidsigning/SignApksBuilder.java:303-311 | globs are listed in order, each with the builder-dir exclusion; selection succeeds exactly when every glob matches something, and then yields a path-ordered set after listing every glob |
| BuildStep.SelectCollectsMatches | src/main/java/org/jenkinsci/plugins/androidsigning/SignApksBuilder.java:303-311 | a successful selection holds exactly the paths some glob matched |
| BuildStep.SelectStopsAtFirstUnmatched | src/main/java/org/jenkinsci/plugins/androidsigning/SignApksBuilder.java:305-309 | a failed selection names the last glob it listed, which matched nothing, while every glob before it matched something |
| BuildStep.SignMatching | src/main/java/org/jenkinsci/plugins/androidsigning/SignApksBuilder.java:303-311 | once the key is read, selection and what follows only extend the trace so far, are never skipped, archive only as the last effect, and launch no zipalign when it is skipped |
| BuildStep.ProcessSelected | src/main/java/org/jenkinsci/plugins/androidsigning/SignApksBuilder.java:313-380 | the loop over the selected APKs and the archive call only extend the trace so far, are never skipped, archive only as the last effect of a completed run, and launch no zipalign when it is skipped |
| BuildStep.RunFor | src/main/java/org/jenkinsci/plugins/androidsigning/SignApksBuilder.java:288-317 | a run uses the builder's mapping, or the sibling mapping when it is null, the builder's Android home and zipalign path for finding zipalign, the builder's archive namespace, and its `skipZipalign` and archive flags |
| BuildStep.ArchivePrefix | src/main/java/org/jenkinsci/plugins/androidsigning/SignApksBuilder.java:313 | the namespace `SignApksBuilder-out/<keyStoreId>/<keyAlias>/`, each rendered by `JavaStrings.Render`; `PerformProperties.ArchiveKeysNamespaced` and `PerformProperties.NamespacesDisjoint` state what it guarantees |
| PathSet.InsertAll | src/main/java/org/jenkinsci/plugins/androidsigning/SignApksBuilder.java:303-310 | adding matches to the ordered set keeps it ascending and holds exactly the old members and the new ones |
| PathSet.Insert | src/main/java/org/jenkinsci/plugins/androidsigning/SignApksBuilder.java:310 | `TreeSet.add` keeps the set ascending and adds exactly the new path to its members |
| PathSet.AscendingUnique | src/main/java/org/jenkinsci/plugins/androidsigning/SignApksBuilder.java:303 | two ascending sequences with the same members are equal, so the set's iteration order is determined by its members |
| PathSet.BelowTotal | src/main/java/org/jenkinsci/plugins/androidsigning/SignApksBuilder.java:303 | the remote-path comparison orders any two different paths |
| PathSet.BelowTransitive | src/main/java/org/jenkinsci/plugins/androidsigning/SignApksBuilder.java:303 | the remote-path comparison is transitive |
| PathSet.Below | src/main/java/org/jenkinsci/plugins/androidsigning/SignApksBuilder.java:303 | the `TreeSet` comparator on remote paths, `String.compareTo` below zero; `PathSet.BelowTotal` and `PathSet.BelowTransitive` make it a strict total order |
| PerformProperties.SelectionIgnoresGlobOrder | src/main/java/org/jenkinsci/plugins/androidsigning/SignApksBuilder.java:303-311 | lists with the same globs in any order or repetition select the same paths, and a selection never holds a path twice |
| PerformProperties.MatchesOfAnyGlob | src/main/java/org/jenkinsci/plugins/androidsigning/SignApksBuilder.java:305-310 | a path is among the matches exactly when some glob's listing holds it |
| BuildStep.AlignAndSign | src/main/java/org/jenkinsci/plugins/androidsigning/SignApksBuilder.java:325-362 | with `skipZipalign` nothing is launched and the unsigned APK itself is checked and signed; otherwise a missing zipalign aborts before anything is launched and a non-zero exit code aborts right after the one launch, in both cases before any signing; the one launch runs the command built from the run's Android home and zipalign path for this APK and its temporary file; the pass succeeds exactly when zipalign succeeded, the aligned APK exists and signing succeeded (or was passed over), and a signer exception aborts with that exception; on success the manifest is extended only for an APK whose destination has a parent |
| BuildStep.CheckAndSign | src/main/java/org/jenkinsci/plugins/androidsigning/SignApksBuilder.java:345-362 | a missing aligned APK aborts with its workspace-relative name before any signing; otherwise the step succeeds exactly when the destination has no parent or the callable returns, so an APK whose destination has no parent is passed over without an abort, and a signer exception aborts with that exception |
| BuildStep.SignAndRecord | src/main/java/org/jenkinsci/plugins/androidsigning/SignApksBuilder.java:354-373 | the destination's parent is created exactly when it is missing; the callable is asked for the aligned APK and destination; the step fails exactly when the destination has a parent and the callable throws, and then with that exception as `SigningAborted`; the APK is recorded exactly when signing succeeded |
| BuildStep.ProcessApk | src/main/java/org/jenkinsci/plugins/androidsigning/SignApksBuilder.java:319-374 | the temporary file `aligned-<base>-.apk` is always created first, even when zipalign is skipped; signing uses the aligned APK and mapped destination; the pass succeeds exactly when `BuildStep.PassSucceeds` holds (zipalign succeeded, the aligned APK exists, signing succeeded or was passed over), independently of the manifest; a failure leaves the manifest as it was; on success the manifest is extended only for an APK whose destination has a parent |
| BuildStep.ProcessApkLaunch | src/main/java/org/jenkinsci/plugins/androidsigning/SignApksBuilder.java:322-340 | zipalign is launched at most once per APK, right after its temporary file is created, with the command for this APK and that file; when no zipalign is found the pass aborts with that message and nothing is launched |
| BuildStep.ProcessApkFailure | src/main/java/org/jenkinsci/plugins/androidsigning/SignApksBuilder.java:325-362 | which failure a pass reports, in the order of the checks: no zipalign found, zipalign's non-zero exit code, a missing aligned APK, then the signing callable's exception |
| BuildStep.ParentlessApkPassedOver | src/main/java/org/jenkinsci/plugins/androidsigning/SignApksBuilder.java:354-357 | an APK whose destination has no parent, once aligned, ends its pass without an abort, signing nothing and leaving the manifest as it was, so the loop goes on |
| BuildStep.ProcessAll | src/main/java/org/jenkinsci/plugins/androidsigning/SignApksBuilder.java:319-374 | the loop lists no glob and archives nothing, and launches no zipalign when it is skipped |
| BuildStep.ProcessAllFailsFast | src/main/java/org/jenkinsci/plugins/androidsigning/SignApksBuilder.java:319-362 | APKs are handled in selection order: the temporary files created are those of the selection up to and including the first APK whose pass fails (`BuildStep.FirstFailing`), and of all of it on success |
| BuildStep.FirstFailing | src/main/java/org/jenkinsci/plugins/androidsigning/SignApksBuilder.java:319-362 | reference definition of where the loop stops, from `BuildStep.PassSucceeds` alone: the position of the first selected APK whose pass does not succeed, or the selection's length; `BuildStep.FirstFailingIsFirst` states it |
| BuildStep.FirstFailingIsFirst | src/main/java/org/jenkinsci/plugins/androidsigning/SignApksBuilder.java:319-362 | every selected APK before `FirstFailing` has a succeeding pass, and the one at `FirstFailing`, if any, does not |
| BuildStep.ProcessAllSucceeds | src/main/java/org/jenkinsci/plugins/androidsigning/SignApksBuilder.java:319-374 | the loop runs to the end exactly when every selected APK's pass succeeds |
| BuildStep.ProcessAllStopsAtFirstFailure | src/main/java/org/jenkinsci/plugins/androidsigning/SignApksBuilder.java:319-374 | a failing loop is exactly the passes before the first failing APK, run to the end, followed by that APK's pass: its trace, that pass's failure, and the manifest the earlier passes left; no later APK is touched |
| BuildStep.RecordedKeys | src/main/java/org/jenkinsci/plugins/androidsigning/SignApksBuilder.java:366-373 | the keys after the two `put`s are the old keys followed by the unsigned APK's name if it is new and then the signed APK's name if it is new and different; so keys stay unique and old keys stay first |
| BuildStep.Recorded | src/main/java/org/jenkinsci/plugins/androidsigning/SignApksBuilder.java:366-373 | the two conditional `put`s, unsigned APK first; `BuildStep.RecordedKeys` gives the resulting key order and `BuildStep.RecordedValues` the values |
| BuildStep.RecordedValues | src/main/java/org/jenkinsci/plugins/androidsigning/SignApksBuilder.java:366-373 | the unsigned APK's key maps to the unsigned APK's workspace-relative path and the signed APK's key to the signed APK's; every other key keeps its value |
| BuildStep.ProcessAllValues | src/main/java/org/jenkinsci/plugins/androidsigning/SignApksBuilder.java:319-373 | every value the loop changes is the workspace-relative path of the unsigned or signed copy of one of the selected APKs, archived under that name; which APK wins a shared name is `BuildStep.ProcessAllGet` |
| BuildStep.LastValue | src/main/java/org/jenkinsci/plugins/androidsigning/SignApksBuilder.java:366-373 | reference definition of a name's value: that of the last selected APK with that archive name, and for it the signed copy's path under the signed name (that `put` comes last), else its own path; `BuildStep.LastValueIsLastApk` characterises it |
| BuildStep.LastValueIsLastApk | src/main/java/org/jenkinsci/plugins/androidsigning/SignApksBuilder.java:366-373 | `LastValue` is none exactly when no APK has the name, and otherwise is the value of the APK at the largest position that has it |
| BuildStep.LastApkDecides | src/main/java/org/jenkinsci/plugins/androidsigning/SignApksBuilder.java:366-373 | when the last APK has a name, its value is the one the name keeps |
| BuildStep.ProcessAllGet | src/main/java/org/jenkinsci/plugins/androidsigning/SignApksBuilder.java:319-373 | after the loop, `get` on any name gives the value of the last APK with that name among those the loop finished before it stopped (all of them when it completed), and the old value for a name none of them has: a later `put` replaces an earlier value |
| BuildStep.ProcessApkKeys | src/main/java/org/jenkinsci/plugins/androidsigning/SignApksBuilder.java:366-373 | one successful pass adds exactly the APK's own archive keys, appending them in `put` order where they are new |
| BuildStep.ProcessAllGrows | src/main/java/org/jenkinsci/plugins/androidsigning/SignApksBuilder.java:366-373 | the manifest only grows, keeping its order, and never holds a key twice |
| BuildStep.ProcessAllKeys | src/main/java/org/jenkinsci/plugins/androidsigning/SignApksBuilder.java:366-373 | the manifest holds only keys of APKs that reached the archive step, and after a completed loop all of them |
| BuildStep.ProcessAllKeyOrder | src/main/java/org/jenkinsci/plugins/androidsigning/SignApksBuilder.java:319-373 | a completed loop's key order is that of putting each selected APK's keys in turn, in selection order and `put` order, appending only new keys |
| BuildStep.Finish | src/main/java/org/jenkinsci/plugins/androidsigning/SignApksBuilder.java:376-380 | an aborted loop adds nothing; a completed one adds one archive call exactly when the manifest is not empty |
| BuildStep.KeysInOrder | src/main/java/org/jenkinsci/plugins/androidsigning/SignApksBuilder.java:319-373 | the reference key order, written without the loop: each selected APK's archive keys in selection order, unsigned before signed, each kept where it first occurs; `PerformProperties.LoopManifest` proves the loop leaves it |
| PerformProperties.LoopManifest | src/main/java/org/jenkinsci/plugins/androidsigning/SignApksBuilder.java:319-373 | a completed loop leaves each archive key of the selected APKs in the manifest exactly once, all under the builder's prefix, in the order `BuildStep.KeysInOrder` defines independently of the loop (selection order, unsigned before signed, each key where it first occurs), and with `get` on every name giving `BuildStep.LastValue`: the path of the last APK with that name, no other names present |
| PerformProperties.ProcessedManifestContents | src/main/java/org/jenkinsci/plugins/androidsigning/SignApksBuilder.java:366-380 | after selection, a completed run archives exactly when some APK has an archive key, and then archives exactly those keys under the builder's prefix, in the order of `BuildStep.KeysInOrder`, each mapped to the path the last APK with that name put there |
| PerformProperties.ArchivedManifestContents | src/main/java/org/jenkinsci/plugins/androidsigning/SignApksBuilder.java:291-380 | the same for the whole step, once the key is readable and every glob matches: exactly the selected APKs' names, in `put` order, each with the last `put`'s path |
| PerformProperties.ArchiveKeysNamespaced | src/main/java/org/jenkinsci/plugins/androidsigning/SignApksBuilder.java:313 | every artifact name starts with `SignApksBuilder-out/<keyStoreId>/<keyAlias>/` |
| PerformProperties.NamespacesDisjoint | src/main/java/org/jenkinsci/plugins/androidsigning/SignApksBuilder.java:313 | a name under two slash-free prefixes fixes both the rendered key store id and the rendered alias |
| PerformProperties.DistinctKeysArchiveApart | src/main/java/org/jenkinsci/plugins/androidsigning/SignApksBuilder.java:313-373 | builders with different key store ids or aliases never produce the same artifact name, whatever they select |
| PerformProperties.SameNamespaceApart | src/main/java/org/jenkinsci/plugins/androidsigning/SignApksBuilder.java:366-373 | within one namespace, APKs with different slash-free names never share an artifact name, whether one builder or two archive them |
| PerformProperties.ZipalignFromToolLocations | src/main/java/org/jenkinsci/plugins/androidsigning/SignApksBuilder.java:288-343 | unless zipalign is skipped, every zipalign launch for an APK runs the command the tool found from the builder's Android home and zipalign path builds for that APK and its temporary file; when no tool is found the run aborts with its message |
| PerformProperties.KeyFailureStopsBeforeSelection | src/main/java/org/jenkinsci/plugins/androidsigning/SignApksBuilder.java:291-301 | an unreadable key aborts with the credential id and the reader's message right after the zipalign directory is made: no glob listed, no APK touched, nothing archived |
| PerformProperties.UnmatchedGlobStopsBeforeApkWork | src/main/java/org/jenkinsci/plugins/androidsigning/SignApksBuilder.java:304-309 | a glob matching nothing aborts naming the first such glob, after listing just the globs up to it, before any temporary file, zipalign, signing or archive |
| PerformProperties.PerformEachStopsAtFirstAbort | src/main/java/org/jenkinsci/plugins/androidsigning/SignApksBuilder.java:248-253 | the split builders run in order; the whole completes exactly when each completes; otherwise it ends with the failure of the first one that aborted |
| PerformProperties.PerformEachChains | src/main/java/org/jenkinsci/plugins/androidsigning/SignApksBuilder.java:248-253 | the delegation loop's outcome is the single-entry builders' own outcomes run one after another: their traces up to and including the first abort, whose failure ends the step |
| BuildStep.PerformEach | src/main/java/org/jenkinsci/plugins/androidsigning/SignApksBuilder.java:248-253 | the delegation loop over the single-entry builders is never skipped; `PerformProperties.PerformEachChains` and `PerformProperties.PerformEachStopsAtFirstAbort` state that it runs them in order up to the first abort |
| PerformProperties.ChainStopsAtFirstAbort | src/main/java/org/jenkinsci/plugins/androidsigning/SignApksBuilder.java:248-253 | outcomes run one after another complete exactly when each of them completes, and otherwise end with the status of the first one that aborted |
| PerformProperties.LegacyBuilderRunsEachEntry | src/main/java/org/jenkinsci/plugins/androidsigning/SignApksBuilder.java:248-254 | an unmigrated builder only runs its split builders, one per entry, each carrying its entry with the builder-dir mapping and zipalign on |
| ArchiveManifest.Put | src/main/java/org/jenkinsci/plugins/androidsigning/SignApksBuilder.java:289 | a `put` on a new key appends it and one on a present key keeps the key order; the key then maps to the new value, and every other key keeps its value |
| ArchiveManifest.Get | src/main/java/org/jenkinsci/plugins/androidsigning/SignApksBuilder.java:289 | `LinkedHashMap.get`; `ArchiveManifest.GetFindsEntry` and `ArchiveManifest.GetPresent` state what it finds |
| ArchiveManifest.GetFindsEntry | src/main/java/org/jenkinsci/plugins/androidsigning/SignApksBuilder.java:289 | a value found for a key is the value of an entry with that key; no value means no entry has the key |
| ArchiveManifest.GetPresent | src/main/java/org/jenkinsci/plugins/androidsigning/SignApksBuilder.java:289 | a key has a value exactly when it is among the keys |
| ArchiveManifest.PutKeys | src/main/java/org/jenkinsci/plugins/androidsigning/SignApksBuilder.java:366-373 | `put` adds exactly its key to the key set, keeps keys unique, and keeps the old keys first |
| ArchiveManifest.PutKeyOrder | src/main/java/org/jenkinsci/plugins/androidsigning/SignApksBuilder.java:289 | the key order after a `put` is the one `ArchiveManifest.Appended` describes: a new key is appended, a present one stays |
| ArchiveManifest.TwoPutsKeyOrder | src/main/java/org/jenkinsci/plugins/androidsigning/SignApksBuilder.java:366-373 | after two `put`s the keys are the old ones, then the first key if new, then the second if new and different from the first |
| ArchiveManifest.TwoAppendedOrder | src/main/java/org/jenkinsci/plugins/androidsigning/SignApksBuilder.java:366-373 | putting at most two keys in turn appends the first if it is new, then the second if it is new and not the first |
| ArchiveManifest.TwoAppendedExtends | src/main/java/org/jenkinsci/plugins/androidsigning/SignApksBuilder.java:366-373 | a manifest whose keys are the old ones followed by those two appended keys holds exactly the old keys and the put ones, keeps the old keys first and keeps keys unique |
| ArchiveManifest.AppendedConcat | src/main/java/org/jenkinsci/plugins/androidsigning/SignApksBuilder.java:289 | putting two runs of keys one after the other gives the key order of putting them together |
| ArchiveManifest.AppendedFirstOccurrences | src/main/java/org/jenkinsci/plugins/androidsigning/SignApksBuilder.java:289 | putting keys in turn into an empty `LinkedHashMap` leaves them in first-occurrence order, as `FirstOccurrences` defines it |
| ArchiveManifest.FirstOccurrencesMembers | src/main/java/org/jenkinsci/plugins/androidsigning/SignApksBuilder.java:289 | dropping later repeats keeps every element |
| SignApk.RequestFor | src/main/java/org/jenkinsci/plugins/androidsigning/SignApksBuilder.java:497-511 | the signer gets one signer configuration with the key, chain and v1 name, the input and output APKs, v1, v2 and v3 on, and other signers' signatures dropped |
| SignApk.Invoke | src/main/java/org/jenkinsci/plugins/androidsigning/SignApksBuilder.java:487-524 | the trace is the deletion of an existing output, then one signing request unless that deletion failed; an undeletable output aborts without signing; the call fails exactly when the signer throws, with its message |
| SignApk.InvokeSignsOnce | src/main/java/org/jenkinsci/plugins/androidsigning/SignApksBuilder.java:490-516 | the signer is asked exactly once, or never when a stale output cannot be deleted |
| Scenarios.TwoGlobsFromList | src/test/java/org/jenkinsci/plugins/androidsigning/SignApksBuilderTest.java:437-451 | `SignApksBuilderTest.apk, *Test.apk` parses to those two globs |
| Scenarios.SameApkSelectedOnce | src/test/java/org/jenkinsci/plugins/androidsigning/SignApksBuilderTest.java:437-451 | an APK both globs match is selected once |
| Scenarios.TwoBuildersFourArtifacts | src/test/java/org/jenkinsci/plugins/androidsigning/SignApksBuilderTest.java:349-383 | two builders with the same key, one signing `SignApksBuilderTest.apk` and one `SignApksBuilderTest-unsigned.apk`, archive the four names the test expects, two under each unsigned APK's name, none shared |
| Scenarios.OneApkArchiveFlags | src/test/java/org/jenkinsci/plugins/androidsigning/SignApksBuilderTest.java:218-280 | one signed APK whose signed name differs from its own contributes one artifact per archive flag that is set |
| Scenarios.SameNameLaterApkWins | src/main/java/org/jenkinsci/plugins/androidsigning/SignApksBuilder.java:366-373 | two selected APKs with the same file name in different directories share their artifact names, and the archive keeps the later APK's signed and unsigned paths |
| Scenarios.BlankToolLocationsBecomeNull | src/test/java/org/jenkinsci/plugins/androidsigning/SignApksBuilderTest.java:188-202 | empty and blank Android home and zipalign path become null |
| Scenarios.TwoEntriesRefused | src/test/java/org/jenkinsci/plugins/androidsigning/SignApksBuilderTest.java:687-693 | the list constructor refuses two entries |
| Scenarios.MigrationFollowsEntries | src/test/java/org/jenkinsci/plugins/androidsigning/MultiEntryToSingleEntryBuilderMigrationTest.java:33-62 | a builder with entries is not migrated; one with no entries and a new one are |

## Left out

- Environment discovery (`SignApksBuilder.java:256-282`) is left out. This is the `echo` launch and the merge of environment variables. It only feeds `ZipalignTool`, which is an oracle here.
- `ZipalignTool`, `SignedApkMappingStrategy` and `SigningComponents` are not part of this model. Their lookup orders, suffix rules and key-selection rules appear only as the oracle fields `zipalignCommand`, `destination` and `signingComponents`. The model assumes only what their call sites show: `zipalignCommand` is given the builder's Android home and zipalign path (the tool is built from them at `SignApksBuilder.java:288`), and `destination` is given the run's mapping.
- Credential lookup and the descriptor's form helpers and validation (`SignApksBuilder.java:388-466`) are left out. Lookup and key reading together form the one oracle `signingComponents`. This oracle has a few effects:
  - A missing credential becomes an error of that oracle. In the source it is a `NullPointerException` rather than the "Error reading signing key" abort.
  - The abort names the credential by the rendered `keyStoreId`. The source uses the credential's `getId()`, which is that id for a credential found by id.
- `relativeToWorkspace` (`SignApksBuilder.java:383-386`) is an oracle. So are `absolutize`, `getName` and `getBaseName`, and the Ant glob matcher.
- The file system is a snapshot:
  - `exists`, `isFile` and `delete` are answered by oracles that do not change as the step runs.
  - Creating a directory always succeeds.
  - The temporary file's name is an oracle of its directory, prefix and suffix.
- The exact messages of the aborts are not modelled. Their data is: the glob, the exit code, the aligned APK's name, the signer's message.
- Logging is not modelled, nor the printed zipalign command.
- The cast of each certificate to `X509Certificate` (`SignApksBuilder.java:497-500`) is not modelled: certificates are opaque strings.
- Remoting is not modelled. `SignApkCallable` runs on the node that holds the APK; here it is an ordinary call with that node's `SignerWorld`.
- The `TreeSet` comparator compares remote paths as Dafny strings, code point by code point. Java compares UTF-16 code units; the two orders differ only for characters outside the Basic Multilingual Plane.
- BuildStep.Perform: when the mapping is null at the start of `perform`, the source writes the sibling mapping back into the builder field (`SignApksBuilder.java:315-317`). The model uses the same mapping for the run but does not return the changed builder; only the getter's later value differs.
- The run's result is fixed for the whole of `perform`. Delegated builders all see the result the first one saw.
- Two points of order follow the code:
  - A missing zipalign is reported by `commandFor` (`SignApksBuilder.java:330`), per APK and after that APK's temporary file is created. With `skipZipalign` it is not looked for at all. This rests on an assumption about `ZipalignTool`: that its constructor at `SignApksBuilder.java:288` does not fail when no zipalign is found. If it did, the step would abort before reading the key.
  - The key material is read (`SignApksBuilder.java:291-301`) before the globs are expanded (`SignApksBuilder.java:303-311`), so an unreadable key wins over an unmatched glob.
- The oracles `list`, `createTempFile`, the zipalign launch and its `join`, `relativeToWorkspace`, `destination`, the remote call `act` that runs the signing callable, and the artifact manager's `archive` are total. In the source each can throw an `IOException` or `InterruptedException`, which ends the step with that exception; the model has no such outcome.
- The glob list is cut at bare commas and each piece trimmed, where the source splits on the regular expression `\s*,\s*` (`SignApksBuilder.java:90`). The results agree. Every character `\s` matches is at or below U+0020, so what the expression swallows next to a comma is edge whitespace that `trim` removes anyway. Java drops only trailing empty pieces, and those are blank and are dropped by the filter too.
- ProcessAllValues: states only that each value the loop changes comes from one of the selected APKs, for a loop that stopped as well as one that completed. The exact value a shared name keeps, the last `put`'s, is stated by `BuildStep.ProcessAllGet`.

=== FILE: archive_manifest.dfy ===
/**
 * The `LinkedHashMap<String, String>` of APKs to archive: artifact name to
 * workspace-relative path, iterated in insertion order. A `put` on a key that
 * is already present replaces its value and leaves it where it was.
 */
module ArchiveManifest {
  import opened Wrappers

  type Manifest = seq<(string, string)>

  /** The keys in iteration order. */
  function Keys(m: Manifest): (ks: seq<string>)
    ensures |ks| == |m|
    ensures forall i :: 0 <= i < |m| ==> ks[i] == m[i].0
  {
    if m == [] then [] else [m[0].0] + Keys(m[1..])
  }

  predicate Distinct(ks: seq<string>) {
    forall i, j :: 0 <= i < j < |ks| ==> ks[i] != ks[j]
  }

  /** No key occurs twice, as in any `Map`. */
  predicate UniqueKeys(m: Manifest) {
    Distinct(Keys(m))
  }

  /** `get`: the value of the entry for `k`, or null when no entry has that key. */
  function Get(m: Manifest, k: string): Option<string> {
    if m == [] then None
    else if m[0].0 == k then Some(m[0].1)
    else Get(m[1..], k)
  }

  /** A value `get` finds is the value of an entry with that key; no value means no entry has the key. */
  lemma {:induction false} GetFindsEntry(m: Manifest, k: string)
    ensures Get(m, k).Some? ==> (k, Get(m, k).value) in m
    ensures Get(m, k).None? ==> forall i :: 0 <= i < |m| ==> m[i].0 != k
  {
    if m != [] && m[0].0 != k {
      GetFindsEntry(m[1..], k);
      assert forall i :: 1 <= i < |m| ==> m[i] == m[1..][i - 1];
    }
  }

  lemma {:induction false} GetPresent(m: Manifest, k: string)
    ensures Get(m, k).Some? <==> k in Keys(m)
  {
    if m != [] {
      GetPresent(m[1..], k);
      assert Keys(m) == [m[0].0] + Keys(m[1..]);
    }
  }

  /** `put(k, v)`. */
  function Put(m: Manifest, k: string, v: string): (r: Manifest)
    ensures Keys(r) == if k in Keys(m) then Keys(m) else Keys(m) + [k]
    ensures Get(r, k) == Some(v)
    ensures forall k' :: k' != k ==> Get(r, k') == Get(m, k')
  {
    if m == [] then [(k, v)]
    else if m[0].0 == k then
      var r := [(k, v)] + m[1..];
      assert r[1..] == m[1..];
      r
    else
      var tail := Put(m[1..], k, v);
      var r := [m[0]] + tail;
      assert r[0] == m[0] && r[1..] == tail;
      // both key lists start with the untouched first key
      assert Keys(m) == [m[0].0] + Keys(m[1..]);
      assert Keys(r) == [m[0].0] + Keys(tail);
      assert k in Keys(m) <==> k in Keys(m[1..]);
      assert k !in Keys(m) ==> Keys(r) == ([m[0].0] + Keys(m[1..])) + [k];
      r
  }

  /** A manifest built by `put` alone never holds a key twice. */
  lemma PutKeepsKeysUnique(m: Manifest, k: string, v: string)
    requires UniqueKeys(m)
    ensures UniqueKeys(Put(m, k, v))
  {
  }

  /** What `put` does to the key set, uniqueness and order of a manifest. */
  lemma PutKeys(m: Manifest, k: string, v: string)
    ensures forall x :: x in Keys(Put(m, k, v)) <==> x in Keys(m) || x == k
    ensures UniqueKeys(m) ==> UniqueKeys(Put(m, k, v))
    ensures Keys(m) <= Keys(Put(m, k, v))
  {
    if k !in Keys(m) {
      assert Keys(Put(m, k, v)) == Keys(m) + [k];
      assert Keys(m) <= Keys(m) + [k];
    }
    if UniqueKeys(m) {
      PutKeepsKeysUnique(m, k, v);
    }
  }

  // ------------------------------------------------------------ key order

  /**
   * The key order after `put`ting the keys `s` one by one into a map whose keys
   * are `ks`: a key not yet present is appended, a present one stays where it is.
   */
  function Appended(ks: seq<string>, s: seq<string>): seq<string>
    decreases |s|
  {
    if s == [] then ks else Appended(if s[0] in ks then ks else ks + [s[0]], s[1..])
  }

  /** The key order `put` leaves is the one `Appended` describes. */
  lemma PutKeyOrder(m: Manifest, k: string, v: string)
    ensures Keys(Put(m, k, v)) == Appended(Keys(m), [k])
  {
    assert [k][1..] == [];
  }

  /** The key order after two `put`s: the first key if new, then the second if new and different. */
  lemma TwoPutsKeyOrder(m: Manifest, k1: string, v1: string, k2: string, v2: string)
    ensures Keys(Put(Put(m, k1, v1), k2, v2)) ==
      Keys(m) + (if k1 !in Keys(m) then [k1] else []) + (if k2 !in Keys(m) && k2 != k1 then [k2] else [])
  {
    var m1 := Put(m, k1, v1);
    assert k2 in Keys(m1) <==> k2 in Keys(m) || k2 == k1;
  }

  /**
   * The keys that putting `a` (when `putA`) and then `b` (when `putB`) appends
   * to a map whose keys are `ks`: `a` if it is new, then `b` if it is new and
   * not the key just appended.
   */
  function TwoAppended(ks: seq<string>, a: string, putA: bool, b: string, putB: bool): seq<string> {
    (if putA && a !in ks then [a] else []) + (if putB && b !in ks && !(putA && b == a) then [b] else [])
  }

  /** `TwoAppended` is what `Appended` leaves after the (at most) two keys. */
  lemma TwoAppendedOrder(ks: seq<string>, a: string, putA: bool, b: string, putB: bool)
    ensures Appended(ks, (if putA then [a] else []) + (if putB then [b] else [])) == ks + TwoAppended(ks, a, putA, b, putB)
  {
    if putA && putB {
      var ks1 := if a in ks then ks else ks + [a];
      assert [a] + [b] == [a, b] && [a, b][0] == a && [a, b][1..] == [b] && [b][1..] == [];
      assert Appended(ks, [a, b]) == Appended(ks1, [b]) == if b in ks1 then ks1 else ks1 + [b];
      assert b in ks1 <==> b in ks || (a !in ks && b == a);
      assert ks1 == ks + (if a !in ks then [a] else []);
    } else if putA {
      assert [a][1..] == [];
    } else if putB {
      assert [b][1..] == [];
    }
  }

  /**
   * A manifest whose keys are those of `m` followed by `TwoAppended` holds
   * exactly the old keys and the put ones, keeps the old keys first, and keeps
   * keys unique.
   */
  lemma TwoAppendedExtends(m: Manifest, m': Manifest, a: string, putA: bool, b: string, putB: bool)
    requires Keys(m') == Keys(m) + TwoAppended(Keys(m), a, putA, b, putB)
    ensures forall k :: k in Keys(m') <==> k in Keys(m) || (putA && k == a) || (putB && k == b)
    ensures UniqueKeys(m) ==> UniqueKeys(m')
    ensures Keys(m) <= Keys(m')
  {
    var added := TwoAppended(Keys(m), a, putA, b, putB);
    assert forall k :: k in added ==> k !in Keys(m);
    assert Distinct(added);
    if UniqueKeys(m) {
      DistinctAppend(Keys(m), added);
    }
  }

  /** Putting `a` and then `b` is putting `a + b`. */
  lemma {:induction false} AppendedConcat(ks: seq<string>, a: seq<string>, b: seq<string>)
    ensures Appended(ks, a + b) == Appended(Appended(ks, a), b)
    decreases |a|
  {
    if a == [] {
      assert a + b == b;
    } else {
      assert (a + b)[0] == a[0] && (a + b)[1..] == a[1..] + b;
      AppendedConcat(if a[0] in ks then ks else ks + [a[0]], a[1..], b);
    }
  }

  /** `s` with every element kept where it first occurs and its later repeats dropped. */
  function FirstOccurrences(s: seq<string>): seq<string> {
    if s == [] then []
    else
      var init := s[..|s| - 1];
      FirstOccurrences(init) + (if s[|s| - 1] in init then [] else [s[|s| - 1]])
  }

  /** Dropping repeats keeps every element. */
  lemma {:induction false} FirstOccurrencesMembers(s: seq<string>)
    ensures forall x :: x in FirstOccurrences(s) <==> x in s
  {
    if s != [] {
      var init := s[..|s| - 1];
      FirstOccurrencesMembers(init);
      assert s == init + [s[|s| - 1]];
    }
  }

  /**
   * Putting keys into a map that holds the first occurrences of `a` leaves the
   * first occurrences of `a + b`.
   */
  lemma {:induction false} AppendedFirstOccurrences(a: seq<string>, b: seq<string>)
    ensures Appended(FirstOccurrences(a), b) == FirstOccurrences(a + b)
    decreases |b|
  {
    if b == [] {
      assert a + b == a;
    } else {
      FirstOccurrencesMembers(a);
      var a' := a + [b[0]];
      assert a'[..|a'| - 1] == a && a'[|a'| - 1] == b[0];
      // the first put is the step `FirstOccurrences` takes for `b[0]`
      assert FirstOccurrences(a') == if b[0] in FirstOccurrences(a) then FirstOccurrences(a) else FirstOccurrences(a) + [b[0]];
      AppendedFirstOccurrences(a', b[1..]);
      assert a' + b[1..] == a + b;
    }
  }

  /** A sequence of distinct keys followed by distinct keys it lacks is distinct. */
  lemma DistinctAppend(a: seq<string>, b: seq<string>)
    requires Distinct(a) && Distinct(b)
    requires forall x :: x in b ==> x !in a
    ensures Distinct(a + b)
  {
    forall i, j | 0 <= i < j < |a + b| ensures (a + b)[i] != (a + b)[j] {
      if j >= |a| && i < |a| {
        assert (a + b)[j] in b && (a + b)[i] in a;
      }
    }
  }
}

=== FILE: builder_config.dfy ===
/**
 * The configuration of one "Sign Android APKs" build step (`SignApksBuilder`):
 * its fields, the normalising setters, the constructors, the deserialisation
 * fix-up and the split of a pre-2.1 multi-entry builder into single-entry ones.
 */
module BuilderConfig {
  import opened Wrappers
  import opened JavaStrings

  /** The `SignedApkMappingStrategy` that decides where a signed APK is written. */
  datatype Mapping =
    | UnsignedApkSiblingMapping
    | UnsignedApkBuilderDirMapping
      /** A strategy contributed from elsewhere, known only by name. */
    | OtherMapping(name: string)

  /** One signing entry of a pre-2.1 builder (the deprecated class `Apk`). */
  datatype ApkEntry = ApkEntry(
    keyStore: Option<string>,
    alias: Option<string>,
    apksToSign: Option<string>,
    archiveSignedApks: bool,
    archiveUnsignedApks: bool)

  /** The builder's fields; `None` stands for Java's `null`. */
  datatype Builder = Builder(
    androidHome: Option<string>,
    zipalignPath: Option<string>,
    keyStoreId: Option<string>,
    keyAlias: Option<string>,
    apksToSign: Option<string>,
    signedApkMapping: Option<Mapping>,
    archiveSignedApks: bool,
    archiveUnsignedApks: bool,
    skipZipalign: bool,
      /** Only ever non-null on a builder read back from a pre-2.1 job configuration. */
    entries: Option<seq<ApkEntry>>)

  const MultipleEntriesMessage: string :=
    "this constructor is deprecated; use multiple build steps instead of multiple signing entries"

  /** The default constructor, with the field initialisers. */
  function NewBuilder(): (b: Builder)
    ensures b.signedApkMapping == Some(UnsignedApkSiblingMapping)
    ensures b.archiveSignedApks && !b.archiveUnsignedApks && !b.skipZipalign
    ensures b.androidHome.None? && b.zipalignPath.None?
    ensures b.keyStoreId.None? && b.keyAlias.None? && b.apksToSign.None?
    ensures IsMigrated(b)
  {
    Builder(None, None, None, None, None, Some(UnsignedApkSiblingMapping), true, false, false, None)
  }

  /** `isMigrated`: the builder holds no legacy signing entries. */
  predicate IsMigrated(b: Builder) {
    b.entries.None? || |b.entries.value| == 0
  }

  /**
   * Migration and splitting agree: a builder is migrated exactly when it has
   * no entries to split into single-entry builders, and every builder the
   * split produces is migrated.
   */
  lemma MigratedExactlyWhenNothingToSplit(b: Builder)
    ensures IsMigrated(b) <==> b.entries.None? || SingleEntryBuilders(b) == []
    ensures b.entries.Some? ==>
      forall i :: 0 <= i < |SingleEntryBuilders(b)| ==> IsMigrated(SingleEntryBuilders(b)[i])
  {
  }

  /** A value `stripToNull` can produce: null, or text with no whitespace at either end. */
  predicate NullOrStripped(x: Option<string>) {
    x.None? || (x.value != [] && Unpadded(x.value, IsJavaWhitespace))
  }

  /** `StringUtils.stripToNull`. */
  function StripToNull(x: Option<string>): (r: Option<string>)
    ensures NullOrStripped(r)
    ensures r.None? <==> x.None? || AllOf(x.value, IsJavaWhitespace)
    ensures r.Some? ==> PaddedBy(x.value, r.value, LeadLength(x.value, IsJavaWhitespace), IsJavaWhitespace)
  {
    match x
    case None => None
    case Some(s) =>
      var t := Strip(s, IsJavaWhitespace);
      if t == [] then None else Some(t)
  }

  /** `stripToNull` of its own result changes nothing. */
  lemma StripToNullIdempotent(x: Option<string>)
    ensures StripToNull(StripToNull(x)) == StripToNull(x)
  {
    if x.Some? {
      StripIdempotent(x.value, IsJavaWhitespace);
    }
  }

  /** `setAndroidHome`. */
  function SetAndroidHome(b: Builder, x: Option<string>): (r: Builder)
    ensures NullOrStripped(r.androidHome)
    ensures r.androidHome.None? <==> x.None? || AllOf(x.value, IsJavaWhitespace)
    ensures r.androidHome.Some? ==>
      PaddedBy(x.value, r.androidHome.value, LeadLength(x.value, IsJavaWhitespace), IsJavaWhitespace)
    ensures r.(androidHome := b.androidHome) == b
  {
    b.(androidHome := StripToNull(x))
  }

  /** `setZipalignPath`. */
  function SetZipalignPath(b: Builder, x: Option<string>): (r: Builder)
    ensures NullOrStripped(r.zipalignPath)
    ensures r.zipalignPath.None? <==> x.None? || AllOf(x.value, IsJavaWhitespace)
    ensures r.zipalignPath.Some? ==>
      PaddedBy(x.value, r.zipalignPath.value, LeadLength(x.value, IsJavaWhitespace), IsJavaWhitespace)
    ensures r.(zipalignPath := b.zipalignPath) == b
  {
    b.(zipalignPath := StripToNull(x))
  }

  /**
   * Feeding a getter's value back into its setter changes nothing, which is
   * what a configuration form round trip does.
   */
  lemma SettersAreStable(b: Builder, home: Option<string>, zipalign: Option<string>)
    ensures var r := SetZipalignPath(SetAndroidHome(b, home), zipalign);
      SetZipalignPath(SetAndroidHome(r, r.androidHome), r.zipalignPath) == r
  {
    StripToNullIdempotent(home);
    StripToNullIdempotent(zipalign);
  }

  /** `readResolve`: a builder saved before the mapping setting existed keeps the old layout. */
  function ReadResolve(b: Builder): (r: Builder)
    ensures r.signedApkMapping.Some?
    ensures b.signedApkMapping.Some? ==> r == b
    ensures b.signedApkMapping.None? ==> r.signedApkMapping == Some(UnsignedApkBuilderDirMapping)
    ensures r.(signedApkMapping := b.signedApkMapping) == b
  {
    if b.signedApkMapping.None? then b.(signedApkMapping := Some(UnsignedApkBuilderDirMapping)) else b
  }

  /** The builder carries the entry's key store, alias, globs and archive flags. */
  predicate CarriesEntry(b: Builder, e: ApkEntry) {
    && b.keyStoreId == e.keyStore
    && b.keyAlias == e.alias
    && b.apksToSign == e.apksToSign
    && b.archiveSignedApks == e.archiveSignedApks
    && b.archiveUnsignedApks == e.archiveUnsignedApks
  }

  /** `setPropertiesFromOldSigningEntry`: old entries always used the builder-dir layout. */
  function FromOldSigningEntry(b: Builder, e: ApkEntry): (r: Builder)
    ensures CarriesEntry(r, e)
    ensures r.signedApkMapping == Some(UnsignedApkBuilderDirMapping)
    ensures r.androidHome == b.androidHome && r.zipalignPath == b.zipalignPath
    ensures r.skipZipalign == b.skipZipalign && r.entries == b.entries
  {
    b.(keyStoreId := e.keyStore, keyAlias := e.alias, apksToSign := e.apksToSign,
       signedApkMapping := Some(UnsignedApkBuilderDirMapping),
       archiveSignedApks := e.archiveSignedApks, archiveUnsignedApks := e.archiveUnsignedApks)
  }

  /**
   * The deprecated `SignApksBuilder(List<Apk>)` constructor: no entry gives a
   * default builder, one entry is copied, more than one is refused.
   */
  function LegacyBuilder(entries: seq<ApkEntry>): (r: Result<Builder, string>)
    ensures r.Err? <==> |entries| > 1
    ensures r.Err? ==> r.error == MultipleEntriesMessage
    ensures |entries| == 0 ==> r == Ok(NewBuilder())
    ensures |entries| == 1 ==> r.Ok? && CarriesEntry(r.value, entries[0])
    ensures |entries| == 1 ==> r.value.signedApkMapping == Some(UnsignedApkBuilderDirMapping)
    ensures r.Ok? ==> IsMigrated(r.value) && !r.value.skipZipalign
    ensures r.Ok? ==> r.value.androidHome.None? && r.value.zipalignPath.None?
  {
    if |entries| == 1 then Ok(FromOldSigningEntry(NewBuilder(), entries[0]))
    else if |entries| > 1 then Err(MultipleEntriesMessage)
    else Ok(NewBuilder())
  }

  /** One new builder per entry, each given the old builder's tool locations. */
  function BuildersForEntries(entries: seq<ApkEntry>, home: Option<string>, zipalign: Option<string>): (bs: seq<Builder>)
    ensures |bs| == |entries|
    ensures forall i :: 0 <= i < |bs| ==>
      && bs[i].entries.None?
      && CarriesEntry(bs[i], entries[i])
      && bs[i].signedApkMapping == Some(UnsignedApkBuilderDirMapping)
      && !bs[i].skipZipalign
      && bs[i].androidHome == StripToNull(home)
      && bs[i].zipalignPath == StripToNull(zipalign)
  {
    if entries == [] then []
    else
      var b := SetZipalignPath(SetAndroidHome(FromOldSigningEntry(NewBuilder(), entries[0]), home), zipalign);
      [b] + BuildersForEntries(entries[1..], home, zipalign)
  }

  /**
   * `singleEntryBuildersFromEntriesOfBuilder`. The source reads the entry list
   * without a null check, so it must be present.
   */
  function SingleEntryBuilders(legacy: Builder): (bs: seq<Builder>)
    requires legacy.entries.Some?
    ensures |bs| == |legacy.entries.value|
    ensures forall i :: 0 <= i < |bs| ==>
      && bs[i].entries.None?
      && CarriesEntry(bs[i], legacy.entries.value[i])
      && bs[i].signedApkMapping == Some(UnsignedApkBuilderDirMapping)
      && !bs[i].skipZipalign
      && bs[i].androidHome == StripToNull(legacy.androidHome)
      && bs[i].zipalignPath == StripToNull(legacy.zipalignPath)
  {
    BuildersForEntries(legacy.entries.value, legacy.androidHome, legacy.zipalignPath)
  }

  /**
   * Splitting agrees with the one-entry legacy constructor: each new builder
   * is what that constructor makes of its entry, plus the inherited tool
   * locations, which come through unchanged when they were set through the
   * setters.
   */
  lemma SplitMatchesLegacyConstructor(legacy: Builder, i: nat)
    requires legacy.entries.Some? && i < |legacy.entries.value|
    requires NullOrStripped(legacy.androidHome) && NullOrStripped(legacy.zipalignPath)
    ensures var b := SingleEntryBuilders(legacy)[i];
      && LegacyBuilder([legacy.entries.value[i]]) == Ok(b.(androidHome := None, zipalignPath := None))
      && b.androidHome == legacy.androidHome
      && b.zipalignPath == legacy.zipalignPath
  {
    var h := legacy.androidHome;
    var z := legacy.zipalignPath;
    if h.Some? {
      assert h.value[..0] == [] && h.value[0 + |h.value|..] == [];
      StripUnique(h.value, h.value, 0, IsJavaWhitespace);
    }
    if z.Some? {
      assert z.value[..0] == [] && z.value[0 + |z.value|..] == [];
      StripUnique(z.value, z.value, 0, IsJavaWhitespace);
    }
  }
}

=== FILE: effects.dfy ===
/**
 * What a signing step does to the world, recorded in the order it happens:
 * the directories it creates, the globs it expands, the temporary files it
 * creates, the zipalign processes it launches, the signed APKs it deletes and
 * writes, and the one call to the artifact manager.
 */
module Effects {
  import opened ArchiveManifest

  /** A `FilePath`, identified by its remote path. */
  type Path = string

  /** `ApkSigner.SignerConfig`: v1 signer name, private key and certificate chain, leaf first. */
  datatype SignerConfig = SignerConfig(name: string, privateKey: string, certificates: seq<string>)

  /** The settings an `ApkSigner` is built with before `sign()` is called. */
  datatype SignRequest = SignRequest(
    signerConfigs: seq<SignerConfig>,
    inputApk: Path,
    outputApk: Path,
    otherSignersSignaturesPreserved: bool,
    v1SigningEnabled: bool,
    v2SigningEnabled: bool,
    v3SigningEnabled: bool)

  datatype Effect =
    | MakeDirs(dir: Path)
      /** `FilePath.list(includes, excludes)` on the workspace. */
    | ListGlob(includes: string, excludes: string)
    | CreateTempFile(dir: Path, prefix: string, suffix: string)
    | LaunchZipalign(command: seq<string>)
    | DeletePreviousSigned(path: Path)
    | SignApk(request: SignRequest)
      /** `ArtifactManager.archive` with the manifest of artifact names to workspace paths. */
    | Archive(manifest: Manifest)

  /** Effects that belong to the handling of one selected APK. */
  predicate IsApkEffect(e: Effect) {
    e.CreateTempFile? || e.LaunchZipalign? || e.DeletePreviousSigned? || e.SignApk?
  }

  predicate NoArchive(t: seq<Effect>) {
    forall i :: 0 <= i < |t| ==> !t[i].Archive?
  }

  predicate NoGlobListing(t: seq<Effect>) {
    forall i :: 0 <= i < |t| ==> !t[i].ListGlob?
  }

  predicate NoApkWork(t: seq<Effect>) {
    forall i :: 0 <= i < |t| ==> !IsApkEffect(t[i])
  }

  predicate NoZipalignLaunch(t: seq<Effect>) {
    forall i :: 0 <= i < |t| ==> !t[i].LaunchZipalign?
  }

  predicate NoSigning(t: seq<Effect>) {
    forall i :: 0 <= i < |t| ==> !t[i].SignApk?
  }
}

=== FILE: java_strings.dfy ===
/**
 * The few pieces of java.lang.String and commons-lang StringUtils that the
 * builder relies on: trimming, whitespace stripping, a split at a bare
 * separator character (no regular expression) and string concatenation of a
 * possibly-null reference.
 */
module JavaStrings {
  import opened Wrappers

  /** `String.trim` removes every leading and trailing code unit at or below U+0020. */
  predicate IsTrimmable(c: char) {
    c <= ' '
  }

  /**
   * `Character.isWhitespace`, the test `StringUtils.strip` uses: the Unicode space,
   * line and paragraph separators except the non-breaking ones (U+00A0, U+2007,
   * U+202F), plus U+0009..U+000D and U+001C..U+001F.
   */
  predicate IsJavaWhitespace(c: char) {
    || ('\t' <= c <= '\r')
    || ('\U{1C}' <= c <= ' ')
    || c == '\U{1680}'
    || ('\U{2000}' <= c <= '\U{2006}')
    || ('\U{2008}' <= c <= '\U{200A}')
    || c == '\U{2028}' || c == '\U{2029}' || c == '\U{205F}' || c == '\U{3000}'
  }

  predicate AllOf(s: string, p: char -> bool) {
    forall i :: 0 <= i < |s| ==> p(s[i])
  }

  /** The number of leading characters of `s` that satisfy `p`. */
  function LeadLength(s: string, p: char -> bool): (n: nat)
    ensures n <= |s|
    ensures AllOf(s[..n], p)
    ensures n == |s| || !p(s[n])
  {
    if s == [] || !p(s[0]) then 0
    else
      var n' := LeadLength(s[1..], p);
      assert s[..n' + 1] == [s[0]] + s[1..][..n'];
      n' + 1
  }

  /** The number of trailing characters of `s` that satisfy `p`. */
  function TrailLength(s: string, p: char -> bool): (n: nat)
    ensures n <= |s|
    ensures AllOf(s[|s| - n..], p)
    ensures n == |s| || !p(s[|s| - n - 1])
  {
    if s == [] || !p(s[|s| - 1]) then 0
    else
      var init := s[..|s| - 1];
      var n' := TrailLength(init, p);
      assert s[|s| - (n' + 1)..] == init[|init| - n'..] + [s[|s| - 1]];
      n' + 1
  }

  /** `core` sits at offset `lead` of `s`, and everything around it satisfies `p`. */
  predicate PaddedBy(s: string, core: string, lead: nat, p: char -> bool) {
    && lead + |core| <= |s|
    && s[lead..lead + |core|] == core
    && AllOf(s[..lead], p)
    && AllOf(s[lead + |core|..], p)
  }

  /** Neither end of `s` satisfies `p`. */
  predicate Unpadded(s: string, p: char -> bool) {
    s == [] || (!p(s[0]) && !p(s[|s| - 1]))
  }

  /** `s` with its leading and trailing `p`-characters removed. */
  function Strip(s: string, p: char -> bool): (r: string)
    ensures PaddedBy(s, r, LeadLength(s, p), p)
    ensures Unpadded(r, p)
    ensures r == [] <==> AllOf(s, p)
  {
    var lead := LeadLength(s, p);
    var trail := TrailLength(s[lead..], p);
    StripParts(s, lead, trail, p);
    s[lead..][..|s[lead..]| - trail]
  }

  /** The facts about the two counts that make `Strip`'s contract hold. */
  lemma StripParts(s: string, lead: nat, trail: nat, p: char -> bool)
    requires lead <= |s| && AllOf(s[..lead], p) && (lead == |s| || !p(s[lead]))
    requires var rest := s[lead..];
      trail <= |rest| && AllOf(rest[|rest| - trail..], p) && (trail == |rest| || !p(rest[|rest| - trail - 1]))
    ensures var r := s[lead..][..|s[lead..]| - trail];
      && PaddedBy(s, r, lead, p)
      && Unpadded(r, p)
      && (r == [] <==> AllOf(s, p))
  {
    var rest := s[lead..];
    var r := rest[..|rest| - trail];
    assert rest[|rest| - trail..] == s[lead + |r|..];
    assert s[lead..lead + |r|] == r;
    if r == [] {
      assert s == s[..lead] + rest;
    } else {
      assert r[0] == s[lead];
    }
  }

  /** `LeadLength` is the only count whose prefix is all `p` and that stops at a non-`p`. */
  lemma {:induction false} LeadLengthUnique(s: string, n: nat, p: char -> bool)
    requires n <= |s| && AllOf(s[..n], p) && (n == |s| || !p(s[n]))
    ensures LeadLength(s, p) == n
  {
    if n > 0 {
      assert s[..n][0] == s[0];
      assert s[1..][..n - 1] == s[..n][1..];
      LeadLengthUnique(s[1..], n - 1, p);
    }
  }

  /** Likewise for `TrailLength`. */
  lemma {:induction false} TrailLengthUnique(s: string, n: nat, p: char -> bool)
    requires n <= |s| && AllOf(s[|s| - n..], p) && (n == |s| || !p(s[|s| - n - 1]))
    ensures TrailLength(s, p) == n
  {
    if n > 0 {
      var init := s[..|s| - 1];
      assert s[|s| - n..][n - 1] == s[|s| - 1];
      assert init[|init| - (n - 1)..] == s[|s| - n..|s| - 1];
      assert s[|s| - n..][..n - 1] == s[|s| - n..|s| - 1];
      TrailLengthUnique(init, n - 1, p);
    }
  }

  /**
   * Stripping is determined by its result: an unpadded core with only
   * `p`-characters around it is exactly what `Strip` returns.
   */
  lemma StripUnique(s: string, core: string, lead: nat, p: char -> bool)
    requires PaddedBy(s, core, lead, p)
    requires Unpadded(core, p)
    ensures Strip(s, p) == core
  {
    if core == [] {
      assert s == s[..lead] + s[lead..];
      assert AllOf(s, p);
    } else {
      assert s[lead] == core[0];
      LeadLengthUnique(s, lead, p);
      var rest := s[lead..];
      var trail := |rest| - |core|;
      assert rest[|rest| - trail..] == s[lead + |core|..];
      assert rest[|rest| - trail - 1] == core[|core| - 1];
      TrailLengthUnique(rest, trail, p);
      assert rest[..|core|] == core;
    }
  }

  /** Stripping an already stripped string changes nothing. */
  lemma StripIdempotent(s: string, p: char -> bool)
    ensures Strip(Strip(s, p), p) == Strip(s, p)
  {
    var r := Strip(s, p);
    assert r[..0] == [] && r[0 + |r|..] == [];
    StripUnique(r, r, 0, p);
  }

  /** `parts` joined with `sep` between consecutive elements (`String.join`). */
  function JoinWith(parts: seq<string>, sep: string): string {
    if |parts| == 0 then []
    else if |parts| == 1 then parts[0]
    else parts[0] + sep + JoinWith(parts[1..], sep)
  }

  /**
   * `s` cut at every occurrence of the single character `sep`, keeping every
   * empty piece, leading and trailing: the pieces contain no separator and
   * joining them back with `sep` gives `s`. Unlike Java's regular-expression
   * `split`, it swallows nothing around the separator and drops no trailing
   * empty piece.
   */
  function SplitOn(s: string, sep: char): (parts: seq<string>)
    ensures |parts| >= 1
    ensures forall i :: 0 <= i < |parts| ==> sep !in parts[i]
  {
    if s == [] then [[]]
    else
      var rest := SplitOn(s[1..], sep);
      if s[0] == sep then
        assert ([[]] + rest)[1..] == rest;
        [[]] + rest
      else
        var parts := [[s[0]] + rest[0]] + rest[1..];
        assert forall i :: 1 <= i < |parts| ==> parts[i] == rest[i];
        parts
  }

  /** Joining the pieces back with the separator gives the string that was split. */
  lemma {:induction false} SplitOnJoins(s: string, sep: char)
    ensures JoinWith(SplitOn(s, sep), [sep]) == s
  {
    if s != [] {
      SplitOnJoins(s[1..], sep);
      var rest := SplitOn(s[1..], sep);
      SplitOnCons(s[0], s[1..], sep);
      assert [s[0]] + s[1..] == s;
      if s[0] == sep {
        assert ([[]] + rest)[1..] == rest;
      } else {
        var parts := [[s[0]] + rest[0]] + rest[1..];
        assert |parts| > 1 ==> parts[1..] == rest[1..];
      }
    }
  }

  /** A separator splits the string into the pieces on either side of it. */
  lemma {:induction false} SplitOnConcat(a: string, b: string, sep: char)
    ensures SplitOn(a + [sep] + b, sep) == SplitOn(a, sep) + SplitOn(b, sep)
  {
    if a == [] {
      assert a + [sep] + b == [sep] + b;
      SplitOnCons(sep, b, sep);
    } else {
      var x := a[1..];
      SplitOnConcat(x, b, sep);
      assert a + [sep] + b == [a[0]] + (x + [sep] + b);
      assert a == [a[0]] + x;
      SplitOnCons(a[0], x + [sep] + b, sep);
      SplitOnCons(a[0], x, sep);
      ExtendFirstPiece(a[0], sep, SplitOn(x, sep), SplitOn(b, sep));
    }
  }

  /** Putting a character in front of a split acts on its first piece only, which `right` does not touch. */
  lemma ExtendFirstPiece(c: char, sep: char, left: seq<string>, right: seq<string>)
    requires left != []
    ensures var both := left + right;
      (if c == sep then [[]] + both else [[c] + both[0]] + both[1..])
      == (if c == sep then [[]] + left else [[c] + left[0]] + left[1..]) + right
  {
    if c != sep {
      assert (left + right)[1..] == left[1..] + right;
    }
  }

  /** `SplitOn` of a string given by its first character and the rest. */
  lemma SplitOnCons(c: char, t: string, sep: char)
    ensures SplitOn([c] + t, sep) ==
      if c == sep then [[]] + SplitOn(t, sep) else [[c] + SplitOn(t, sep)[0]] + SplitOn(t, sep)[1..]
  {
    assert ([c] + t)[1..] == t;
  }

  /** A string without the separator is a single piece. */
  lemma {:induction false} SplitOnNoSeparator(s: string, sep: char)
    requires sep !in s
    ensures SplitOn(s, sep) == [s]
  {
    if s != [] {
      assert forall i :: 0 <= i < |s[1..]| ==> s[1..][i] == s[i + 1];
      SplitOnNoSeparator(s[1..], sep);
      assert [s[0]] + s[1..] == s;
    }
  }

  /** Java's `"" + x`: a null reference is rendered as the four letters `null`. */
  function Render(x: Option<string>): string {
    match x
    case None => "null"
    case Some(s) => s
  }
}

=== FILE: path_set.dfy ===
/**
 * The set of matched APKs: a `TreeSet<FilePath>` ordered by
 * `Comparator.comparing(FilePath::getRemote)`. A path is modelled by its remote
 * string, so the set is a strictly ascending sequence of strings under
 * `String.compareTo`, and two matches with the same remote path are one element.
 */
module PathSet {

  /** `a.compareTo(b) < 0`: first differing character decides, a proper prefix comes first. */
  predicate Below(a: string, b: string) {
    if a == [] then b != []
    else if b == [] then false
    else if a[0] != b[0] then a[0] < b[0]
    else Below(a[1..], b[1..])
  }

  lemma {:induction false} BelowIrreflexive(a: string)
    ensures !Below(a, a)
  {
    if a != [] {
      BelowIrreflexive(a[1..]);
    }
  }

  lemma {:induction false} BelowAsymmetric(a: string, b: string)
    requires Below(a, b)
    ensures !Below(b, a)
  {
    if a != [] && b != [] && a[0] == b[0] {
      BelowAsymmetric(a[1..], b[1..]);
    }
  }

  lemma {:induction false} BelowTransitive(a: string, b: string, c: string)
    requires Below(a, b) && Below(b, c)
    ensures Below(a, c)
  {
    if a != [] && a[0] == b[0] && b[0] == c[0] {
      BelowTransitive(a[1..], b[1..], c[1..]);
    }
  }

  lemma {:induction false} BelowTotal(a: string, b: string)
    ensures a == b || Below(a, b) || Below(b, a)
  {
    if a != [] && b != [] && a[0] == b[0] {
      BelowTotal(a[1..], b[1..]);
      if a[1..] == b[1..] {
        assert a == [a[0]] + a[1..] && b == [b[0]] + b[1..];
      }
    }
  }

  /** Every element is below every later one: sorted and duplicate-free. */
  predicate Ascending(s: seq<string>) {
    forall i, j :: 0 <= i < j < |s| ==> Below(s[i], s[j])
  }

  /** The head of an ascending sequence is below every other element. */
  lemma HeadIsLeast(s: seq<string>, e: string)
    requires Ascending(s) && e in s
    ensures e == s[0] || Below(s[0], e)
  {
  }

  /** `TreeSet.add`: the element takes its place in the order, or is already there. */
  function Insert(s: seq<string>, x: string): (r: seq<string>)
    requires Ascending(s)
    ensures Ascending(r)
    ensures forall e :: e in r <==> e in s || e == x
  {
    if s == [] then [x]
    else if x == s[0] then s
    else if Below(x, s[0]) then
      assert forall j :: 0 <= j < |s| ==> Below(x, s[j]) by {
        forall j | 0 <= j < |s|
          ensures Below(x, s[j])
        {
          if j > 0 {
            BelowTransitive(x, s[0], s[j]);
          }
        }
      }
      [x] + s
    else
      BelowTotal(x, s[0]);
      var tail := Insert(s[1..], x);
      assert forall e :: e in tail ==> Below(s[0], e);
      [s[0]] + tail
  }

  /** `TreeSet.addAll` of the matches of one glob, in the order they are listed. */
  function InsertAll(s: seq<string>, xs: seq<string>): (r: seq<string>)
    requires Ascending(s)
    ensures Ascending(r)
    ensures forall e :: e in r <==> e in s || e in xs
    decreases |xs|
  {
    if xs == [] then s
    else
      var r := InsertAll(Insert(s, xs[0]), xs[1..]);
      assert forall e :: e in xs <==> e == xs[0] || e in xs[1..];
      r
  }

  /** An element past the shared head of two equal-element ascending sequences. */
  lemma TailMember(a: seq<string>, b: seq<string>, e: string)
    requires Ascending(a) && a != [] && b != [] && a[0] == b[0]
    requires e in a[1..] && e in b
    ensures e in b[1..]
  {
    var k :| 0 <= k < |a[1..]| && a[1..][k] == e;
    assert Below(a[0], a[k + 1]);
    BelowIrreflexive(a[0]);
    var j :| 0 <= j < |b| && b[j] == e;
    assert j != 0;
    assert b[1..][j - 1] == e;
  }

  /**
   * An ascending sequence is determined by its elements: whatever order the
   * matches arrive in, the iteration order of the set is the same.
   */
  lemma {:induction false} AscendingUnique(a: seq<string>, b: seq<string>)
    requires Ascending(a) && Ascending(b)
    requires forall e :: e in a <==> e in b
    ensures a == b
  {
    assert a != [] ==> a[0] in b;
    assert b != [] ==> b[0] in a;
    if a != [] && b != [] {
      HeadIsLeast(a, b[0]);
      HeadIsLeast(b, a[0]);
      if Below(a[0], b[0]) {
        BelowAsymmetric(a[0], b[0]);
      }
      assert a[0] == b[0];
      forall e | e in a[1..]
        ensures e in b[1..]
      {
        TailMember(a, b, e);
      }
      forall e | e in b[1..]
        ensures e in a[1..]
      {
        TailMember(b, a, e);
      }
      AscendingUnique(a[1..], b[1..]);
      assert a == [a[0]] + a[1..] && b == [b[0]] + b[1..];
    }
  }
}

=== FILE: perform.dfy ===
/**
 * `SignApksBuilder.perform`: skip after an earlier failure, delegate for a
 * legacy multi-entry builder, otherwise read the key, select the APKs, and
 * align, sign and record each of them before one final archive call.
 *
 * Everything the step asks of Jenkins, the file system, the zipalign tool,
 * the mapping strategy and the key store is a field of `World`; the step's
 * own decisions are modelled exactly and its effects are returned as a trace.
 */
module BuildStep {
  import opened Wrappers
  import opened JavaStrings
  import opened SelectionGlobs
  import opened PathSet
  import opened ArchiveManifest
  import opened BuilderConfig
  import opened Effects
  import opened SignApk

  /** `BUILDER_DIR`: the simple class name followed by `-out`. */
  const BuilderDir: string := "SignApksBuilder-out"

  /** The exclusion passed with every glob: everything under the builder's output directory. */
  const BuilderDirExcludes: string := BuilderDir + "/**"

  /** Jenkins' `hudson.model.Result`, in declaration order. */
  datatype BuildResult = BuildSuccess | BuildUnstable | BuildFailure | BuildNotBuilt | BuildAborted

  function Ordinal(r: BuildResult): nat {
    match r
    case BuildSuccess => 0
    case BuildUnstable => 1
    case BuildFailure => 2
    case BuildNotBuilt => 3
    case BuildAborted => 4
  }

  /** `isIntermediateFailure`: the run already has a result worse than unstable. */
  function IsIntermediateFailure(result: Option<BuildResult>): (failed: bool)
    ensures failed <==> result in {Some(BuildFailure), Some(BuildNotBuilt), Some(BuildAborted)}
  {
    result.Some? && Ordinal(result.value) > Ordinal(BuildUnstable)
  }

  /** The collaborators `perform` calls, as total functions. */
  datatype World = World(
      /** Credential lookup by id and `SigningComponents.fromCredentials(credential, alias)`. */
    signingComponents: (Option<string>, Option<string>) -> Result<SigningComponents, string>,
      /** `workspace.list(includes, excludes)`. */
    list: (string, string) -> seq<Path>,
    absolutize: Path -> Path,
    name: Path -> string,
    baseName: Path -> string,
    parent: Path -> Option<Path>,
    isPresent: Path -> bool,
      /** `relativeToWorkspace`. */
    relativeToWorkspace: Path -> string,
      /** `dir.createTempFile(prefix, suffix)`. */
    createTempFile: (Path, string, string) -> Path,
      /** `SignedApkMappingStrategy.destinationForUnsignedApk`. */
    destination: (Mapping, Path) -> Path,
      /**
       * `commandFor(input, output)` of the `ZipalignTool` built from the builder's
       * Android home and zipalign path override; an error when no zipalign is found.
       */
    zipalignCommand: (Option<string>, Option<string>, Path, Path) -> Result<seq<string>, string>,
      /** The exit code of a launched command. */
    exitCode: seq<string> -> int,
    signer: SignerWorld)

  datatype Failure =
    | KeyStoreUnreadable(credentialId: string, detail: string)
      /** `apksToSign` is null: splitting it throws a `NullPointerException`. */
    | ApksToSignNull
    | NoApksMatching(glob: string)
    | ZipalignNotFound(detail: string)
    | ZipalignFailed(apk: Path, exitCode: int)
    | AlignedApkMissing(alignedRelName: string)
    | SigningAborted(cause: SignFailure)

  datatype Status = Skipped | Completed | Aborted(failure: Failure)

  datatype Outcome = Outcome(trace: seq<Effect>, status: Status)

  /** `FilePath.child(name)`. */
  function Child(dir: Path, name: string): Path {
    dir + "/" + name
  }

  function ZipalignDir(workspace: Path): Path {
    Child(Child(workspace, BuilderDir), "zipalign")
  }

  /** `BUILDER_DIR/<keyStoreId>/<keyAlias>/`, with null rendered as `null`. */
  function ArchivePrefix(keyStoreId: Option<string>, keyAlias: Option<string>): string {
    BuilderDir + "/" + Render(keyStoreId) + "/" + Render(keyAlias) + "/"
  }

  // ---------------------------------------------------------------- selection

  /** Every path that some glob matched. */
  function Matches(w: World, globs: seq<string>): set<Path> {
    if globs == [] then {}
    else (set p | p in w.list(globs[0], BuilderDirExcludes)) + Matches(w, globs[1..])
  }

  /** Every glob matches at least one file. */
  predicate AllMatch(w: World, globs: seq<string>) {
    forall i :: 0 <= i < |globs| ==> w.list(globs[i], BuilderDirExcludes) != []
  }

  datatype Selection = Selection(trace: seq<Effect>, result: Result<seq<Path>, Failure>)

  /**
   * The selection loop: expand each glob in turn into the `TreeSet` of matches,
   * stopping at the first glob that matches nothing.
   */
  function Select(w: World, globs: seq<string>, matched: seq<Path>): (s: Selection)
    requires Ascending(matched)
    ensures |s.trace| <= |globs|
    ensures forall i :: 0 <= i < |s.trace| ==> s.trace[i] == ListGlob(globs[i], BuilderDirExcludes)
    ensures s.result.Ok? <==> AllMatch(w, globs)
    ensures s.result.Ok? ==> |s.trace| == |globs| && Ascending(s.result.value)
  {
    if globs == [] then Selection([], Ok(matched))
    else
      var hits := w.list(globs[0], BuilderDirExcludes);
      var listing := [ListGlob(globs[0], BuilderDirExcludes)];
      if hits == [] then Selection(listing, Err(NoApksMatching(globs[0])))
      else
        var rest := Select(w, globs[1..], InsertAll(matched, hits));
        assert forall i :: 1 <= i < |globs| ==> globs[1..][i - 1] == globs[i];
        Selection(listing + rest.trace, rest.result)
  }

  /** A successful selection holds exactly the paths already matched or matched by some glob. */
  lemma {:induction false} SelectCollectsMatches(w: World, globs: seq<string>, matched: seq<Path>)
    requires Ascending(matched)
    requires Select(w, globs, matched).result.Ok?
    ensures forall p :: p in Select(w, globs, matched).result.value <==> p in matched || p in Matches(w, globs)
  {
    if globs != [] {
      var hits := w.list(globs[0], BuilderDirExcludes);
      SelectCollectsMatches(w, globs[1..], InsertAll(matched, hits));
    }
  }

  /** A failed selection stops at, and names, the first glob that matched nothing. */
  lemma {:induction false} SelectStopsAtFirstUnmatched(w: World, globs: seq<string>, matched: seq<Path>)
    requires Ascending(matched)
    requires Select(w, globs, matched).result.Err?
    ensures var s := Select(w, globs, matched);
      && |s.trace| > 0
      && s.result.error == NoApksMatching(globs[|s.trace| - 1])
      && w.list(globs[|s.trace| - 1], BuilderDirExcludes) == []
      && AllMatch(w, globs[..|s.trace| - 1])
  {
    var hits := w.list(globs[0], BuilderDirExcludes);
    var s := Select(w, globs, matched);
    if hits == [] {
      assert s.trace == [ListGlob(globs[0], BuilderDirExcludes)];
    } else {
      var rest := Select(w, globs[1..], InsertAll(matched, hits));
      SelectStopsAtFirstUnmatched(w, globs[1..], InsertAll(matched, hits));
      SelectStep(w, globs, matched);
      var k := |rest.trace|;
      assert globs[1..][k - 1] == globs[k];
      AllMatchCons(w, globs, k);
    }
  }

  /**
   * Proof step, not a property of the source: one step of `Select` past a
   * glob that matched something, kept apart so the recursive proofs above
   * unfold `Select` only once.
   */
  lemma SelectStep(w: World, globs: seq<string>, matched: seq<Path>)
    requires Ascending(matched)
    requires globs != [] && w.list(globs[0], BuilderDirExcludes) != []
    ensures var rest := Select(w, globs[1..], InsertAll(matched, w.list(globs[0], BuilderDirExcludes)));
      && Select(w, globs, matched).trace == [ListGlob(globs[0], BuilderDirExcludes)] + rest.trace
      && Select(w, globs, matched).result == rest.result
  {
  }

  lemma AllMatchCons(w: World, globs: seq<string>, k: nat)
    requires 0 < k <= |globs|
    requires w.list(globs[0], BuilderDirExcludes) != []
    requires AllMatch(w, globs[1..][..k - 1])
    ensures AllMatch(w, globs[..k])
  {
    forall i | 0 <= i < k
      ensures w.list(globs[..k][i], BuilderDirExcludes) != []
    {
      if i > 0 {
        assert globs[..k][i] == globs[1..][..k - 1][i - 1];
      }
    }
  }

  // ------------------------------------------------------------ one APK

  /** What stays fixed while the selected APKs are processed. */
  datatype Run = Run(
    w: World,
    zipalignDir: Path,
    keys: SigningComponents,
    mapping: Mapping,
    archivePrefix: string,
    skipZipalign: bool,
    archiveUnsignedApks: bool,
    archiveSignedApks: bool,
      /** The builder's `androidHome` and `zipalignPath`, which the `ZipalignTool` is built from. */
    androidHome: Option<string>,
    zipalignPath: Option<string>)

  datatype Progress = Progress(trace: seq<Effect>, manifest: Manifest, failure: Option<Failure>)

  function TempPrefix(r: Run, u: Path): string {
    "aligned-" + r.w.baseName(u) + "-"
  }

  function TempFileFor(r: Run, u: Path): Path {
    r.w.createTempFile(r.zipalignDir, TempPrefix(r, u), ".apk")
  }

  /** The APK that is signed: the unsigned one itself when zipalign is skipped. */
  function AlignedApk(r: Run, u: Path): Path {
    if r.skipZipalign then u else TempFileFor(r, u)
  }

  function SignedApkFor(r: Run, u: Path): Path {
    r.w.destination(r.mapping, u)
  }

  /** The zipalign command for `u`, from the run's tool locations, aligning into its temporary file. */
  function ZipalignCommand(r: Run, u: Path): Result<seq<string>, string> {
    r.w.zipalignCommand(r.androidHome, r.zipalignPath, u, TempFileFor(r, u))
  }

  /** zipalign was skipped, or it was found and exited with code 0. */
  predicate AlignSucceeded(r: Run, u: Path) {
    || r.skipZipalign
    || (ZipalignCommand(r, u).Ok?
        && r.w.exitCode(ZipalignCommand(r, u).value) == 0)
  }

  /** The callable run on the aligned APK of `u`, writing its signed APK. */
  function Signing(r: Run, u: Path): SignOutcome {
    Invoke(r.keys, SignedApkFor(r, u), AlignedApk(r, u), r.w.signer)
  }

  /** Signing `u` ends without an exception: it is passed over for want of a parent directory, or the callable returns. */
  predicate SignSucceeded(r: Run, u: Path) {
    r.w.parent(SignedApkFor(r, u)).None? || Signing(r, u).failure.None?
  }

  /**
   * One pass over `u` ends without an exception: zipalign succeeded, the
   * aligned APK exists, and signing succeeded. Nothing here depends on the
   * manifest the pass starts from.
   */
  predicate PassSucceeds(r: Run, u: Path) {
    AlignSucceeded(r, u) && r.w.isPresent(AlignedApk(r, u)) && SignSucceeded(r, u)
  }

  function UnsignedKey(r: Run, u: Path): string {
    r.archivePrefix + r.w.name(u) + "/" + r.w.name(u)
  }

  function SignedKey(r: Run, u: Path): string {
    r.archivePrefix + r.w.name(u) + "/" + r.w.name(SignedApkFor(r, u))
  }

  /** The manifest after the two conditional `put`s for a signed APK. */
  function Recorded(r: Run, u: Path, m: Manifest): Manifest {
    var m1 := if r.archiveUnsignedApks then Put(m, UnsignedKey(r, u), r.w.relativeToWorkspace(u)) else m;
    if r.archiveSignedApks then Put(m1, SignedKey(r, u), r.w.relativeToWorkspace(SignedApkFor(r, u))) else m1
  }

  /** The prefixes of the temporary files created, in order. */
  function TempFilesCreated(t: seq<Effect>): seq<string> {
    if t == [] then []
    else (if t[0].CreateTempFile? then [t[0].prefix] else []) + TempFilesCreated(t[1..])
  }

  lemma {:induction false} TempFilesCreatedAppend(a: seq<Effect>, b: seq<Effect>)
    ensures TempFilesCreated(a + b) == TempFilesCreated(a) + TempFilesCreated(b)
  {
    if a != [] {
      assert (a + b)[0] == a[0];
      assert (a + b)[1..] == a[1..] + b;
      TempFilesCreatedAppend(a[1..], b);
    } else {
      assert a + b == b;
    }
  }

  /** A trace that creates no temporary file. */
  lemma {:induction false} TempFilesCreatedNone(t: seq<Effect>)
    requires forall i :: 0 <= i < |t| ==> !t[i].CreateTempFile?
    ensures TempFilesCreated(t) == []
  {
    if t != [] {
      assert forall i :: 0 <= i < |t[1..]| ==> t[1..][i] == t[i + 1];
      TempFilesCreatedNone(t[1..]);
    }
  }

  /**
   * Signing and recording, once the aligned APK is known to exist: an APK whose
   * destination has no parent directory is passed over; otherwise the parent is
   * created when missing, the callable signs, and on success the APK's
   * artifacts are recorded.
   */
  function SignAndRecord(r: Run, u: Path, m: Manifest): (p: Progress)
    ensures forall i :: 0 <= i < |p.trace| ==>
      p.trace[i].MakeDirs? || p.trace[i].DeletePreviousSigned? || p.trace[i].SignApk?
    ensures forall i :: 0 <= i < |p.trace| && p.trace[i].SignApk? ==>
      IsRequestFor(p.trace[i].request, r.keys, AlignedApk(r, u), SignedApkFor(r, u))
    ensures r.w.parent(SignedApkFor(r, u)).None? ==> p == Progress([], m, None)
    ensures r.w.parent(SignedApkFor(r, u)).Some? ==>
      var dir := r.w.parent(SignedApkFor(r, u)).value;
      MakeDirs(dir) in p.trace <==> !r.w.isPresent(dir)
    ensures p.failure.Some? ==> p.manifest == m && p.failure.value.SigningAborted?
    ensures p.failure.None? && r.w.parent(SignedApkFor(r, u)).Some? ==>
      && p.manifest == Recorded(r, u, m)
      && SignApk(RequestFor(r.keys, AlignedApk(r, u), SignedApkFor(r, u))) in p.trace
    ensures p.failure.None? <==> SignSucceeded(r, u)
    ensures !SignSucceeded(r, u) ==> p.failure == Some(SigningAborted(Signing(r, u).failure.value))
  {
    var signed := SignedApkFor(r, u);
    match r.w.parent(signed)
    case None => Progress([], m, None)
    case Some(dir) =>
      var mkdirs := if r.w.isPresent(dir) then [] else [MakeDirs(dir)];
      var s := Invoke(r.keys, signed, AlignedApk(r, u), r.w.signer);
      match s.failure
      case Some(f) => Progress(mkdirs + s.trace, m, Some(SigningAborted(f)))
      case None => Progress(mkdirs + s.trace, Recorded(r, u, m), None)
  }

  /** The existence check on the aligned APK, then signing and recording. */
  function CheckAndSign(r: Run, u: Path, m: Manifest): (p: Progress)
    ensures forall i :: 0 <= i < |p.trace| ==>
      p.trace[i].MakeDirs? || p.trace[i].DeletePreviousSigned? || p.trace[i].SignApk?
    ensures forall i :: 0 <= i < |p.trace| && p.trace[i].SignApk? ==>
      IsRequestFor(p.trace[i].request, r.keys, AlignedApk(r, u), SignedApkFor(r, u))
    ensures !r.w.isPresent(AlignedApk(r, u)) ==>
      p == Progress([], m, Some(AlignedApkMissing(r.w.relativeToWorkspace(AlignedApk(r, u)))))
    ensures p.failure.Some? ==> p.manifest == m
    ensures p.failure.None? ==> r.w.isPresent(AlignedApk(r, u))
    ensures p.failure.None? && r.w.parent(SignedApkFor(r, u)).None? ==> p == Progress([], m, None)
    ensures p.failure.None? && r.w.parent(SignedApkFor(r, u)).Some? ==> p.manifest == Recorded(r, u, m)
    ensures p.failure.None? <==> r.w.isPresent(AlignedApk(r, u)) && SignSucceeded(r, u)
    ensures r.w.isPresent(AlignedApk(r, u)) && !SignSucceeded(r, u) ==>
      p.failure == Some(SigningAborted(Signing(r, u).failure.value))
  {
    var aligned := AlignedApk(r, u);
    if !r.w.isPresent(aligned) then
      Progress([], m, Some(AlignedApkMissing(r.w.relativeToWorkspace(aligned))))
    else
      SignAndRecord(r, u, m)
  }

  /**
   * Aligning into the temporary file, unless zipalign is skipped: a missing
   * zipalign or a non-zero exit code stops before anything is signed.
   */
  function AlignAndSign(r: Run, u: Path, m: Manifest): (p: Progress)
    ensures forall i :: 0 <= i < |p.trace| ==>
      p.trace[i].LaunchZipalign? || p.trace[i].MakeDirs? || p.trace[i].DeletePreviousSigned? || p.trace[i].SignApk?
    ensures forall i :: 0 <= i < |p.trace| && p.trace[i].SignApk? ==>
      IsRequestFor(p.trace[i].request, r.keys, AlignedApk(r, u), SignedApkFor(r, u))
    ensures r.skipZipalign ==> NoZipalignLaunch(p.trace)
    ensures forall i :: 0 <= i < |p.trace| && p.trace[i].LaunchZipalign? ==>
      i == 0 && ZipalignCommand(r, u) == Ok(p.trace[i].command)
    ensures !r.skipZipalign && ZipalignCommand(r, u).Err? ==>
      p == Progress([], m, Some(ZipalignNotFound(ZipalignCommand(r, u).error)))
    ensures !r.skipZipalign && ZipalignCommand(r, u).Ok? ==>
      var command := ZipalignCommand(r, u).value;
      && |p.trace| >= 1 && p.trace[0] == LaunchZipalign(command)
      && (r.w.exitCode(command) != 0 ==>
            p == Progress([LaunchZipalign(command)], m, Some(ZipalignFailed(u, r.w.exitCode(command)))))
    ensures AlignSucceeded(r, u) && !r.w.isPresent(AlignedApk(r, u)) ==>
      p.failure == Some(AlignedApkMissing(r.w.relativeToWorkspace(AlignedApk(r, u)))) && NoSigning(p.trace)
    ensures p.failure.Some? ==> p.manifest == m
    ensures p.failure.None? ==> AlignSucceeded(r, u) && r.w.isPresent(AlignedApk(r, u))
    ensures p.failure.None? && r.w.parent(SignedApkFor(r, u)).None? ==> p.manifest == m && NoSigning(p.trace)
    ensures p.failure.None? && r.w.parent(SignedApkFor(r, u)).Some? ==> p.manifest == Recorded(r, u, m)
    ensures p.failure.None? <==> PassSucceeds(r, u)
    ensures AlignSucceeded(r, u) && r.w.isPresent(AlignedApk(r, u)) && !SignSucceeded(r, u) ==>
      p.failure == Some(SigningAborted(Signing(r, u).failure.value))
  {
    if r.skipZipalign then CheckAndSign(r, u, m)
    else
      match ZipalignCommand(r, u)
      case Err(detail) => Progress([], m, Some(ZipalignNotFound(detail)))
      case Ok(command) =>
        var code := r.w.exitCode(command);
        if code != 0 then Progress([LaunchZipalign(command)], m, Some(ZipalignFailed(u, code)))
        else
          var q := CheckAndSign(r, u, m);
          Progress([LaunchZipalign(command)] + q.trace, q.manifest, q.failure)
  }

  /**
   * One pass of the loop over the selected APKs, for the matched path `apk`:
   * the temporary file is always created first, even when zipalign is skipped.
   */
  function ProcessApk(r: Run, apk: Path, m: Manifest): (p: Progress)
    ensures var u := r.w.absolutize(apk);
      && |p.trace| >= 1
      && p.trace[0] == CreateTempFile(r.zipalignDir, TempPrefix(r, u), ".apk")
      && TempFilesCreated(p.trace) == [TempPrefix(r, u)]
      && NoArchive(p.trace) && NoGlobListing(p.trace)
      && (r.skipZipalign ==> NoZipalignLaunch(p.trace))
      && (forall i :: 0 <= i < |p.trace| && p.trace[i].SignApk? ==>
            IsRequestFor(p.trace[i].request, r.keys, AlignedApk(r, u), SignedApkFor(r, u)))
      && (p.failure.Some? ==> p.manifest == m)
      && (p.failure.None? <==> PassSucceeds(r, u))
      && (p.failure.None? && r.w.parent(SignedApkFor(r, u)).None? ==> p.manifest == m)
      && (p.failure.None? && r.w.parent(SignedApkFor(r, u)).Some? ==> p.manifest == Recorded(r, u, m))
  {
    var u := r.w.absolutize(apk);
    var created := CreateTempFile(r.zipalignDir, TempPrefix(r, u), ".apk");
    var q := AlignAndSign(r, u, m);
    TempFilesCreatedNone(q.trace);
    TempFilesCreatedAppend([created], q.trace);
    assert TempFilesCreated([created]) == [created.prefix] + TempFilesCreated([]);
    Progress([created] + q.trace, q.manifest, q.failure)
  }

  /**
   * The zipalign launch of one pass: at most one, right after the temporary
   * file is created, running the command for this APK and that file; when no
   * zipalign is found the pass aborts with that message instead.
   */
  lemma ProcessApkLaunch(r: Run, apk: Path, m: Manifest)
    ensures var u := r.w.absolutize(apk);
      var p := ProcessApk(r, apk, m);
      && (forall i :: 0 <= i < |p.trace| && p.trace[i].LaunchZipalign? ==>
            i == 1 && ZipalignCommand(r, u) == Ok(p.trace[i].command))
      && (!r.skipZipalign && ZipalignCommand(r, u).Ok? ==>
            |p.trace| >= 2 && p.trace[1] == LaunchZipalign(ZipalignCommand(r, u).value))
      && (!r.skipZipalign && ZipalignCommand(r, u).Err? ==>
            p.failure == Some(ZipalignNotFound(ZipalignCommand(r, u).error)))
  {
    var u := r.w.absolutize(apk);
    var q := AlignAndSign(r, u, m);
    var p := ProcessApk(r, apk, m);
    assert p.trace == [CreateTempFile(r.zipalignDir, TempPrefix(r, u), ".apk")] + q.trace;
    forall i | 0 <= i < |p.trace| && p.trace[i].LaunchZipalign?
      ensures i == 1 && ZipalignCommand(r, u) == Ok(p.trace[i].command)
    {
      assert p.trace[i] == q.trace[i - 1];
    }
  }

  /**
   * Why a pass fails, case by case in the order the checks come: no zipalign
   * found, zipalign's non-zero exit code, a missing aligned APK, or the
   * exception of the signing callable.
   */
  lemma ProcessApkFailure(r: Run, apk: Path, m: Manifest)
    ensures var u := r.w.absolutize(apk);
      var p := ProcessApk(r, apk, m);
      && (!r.skipZipalign && ZipalignCommand(r, u).Err? ==>
            p.failure == Some(ZipalignNotFound(ZipalignCommand(r, u).error)))
      && (!r.skipZipalign && ZipalignCommand(r, u).Ok? && r.w.exitCode(ZipalignCommand(r, u).value) != 0 ==>
            p.failure == Some(ZipalignFailed(u, r.w.exitCode(ZipalignCommand(r, u).value))))
      && (AlignSucceeded(r, u) && !r.w.isPresent(AlignedApk(r, u)) ==>
            p.failure == Some(AlignedApkMissing(r.w.relativeToWorkspace(AlignedApk(r, u)))))
      && (AlignSucceeded(r, u) && r.w.isPresent(AlignedApk(r, u)) && !SignSucceeded(r, u) ==>
            p.failure == Some(SigningAborted(Signing(r, u).failure.value)))
  {
    var u := r.w.absolutize(apk);
    assert ProcessApk(r, apk, m).failure == AlignAndSign(r, u, m).failure;
  }

  /**
   * An APK whose signed destination has no parent directory is passed over:
   * once zipalign succeeded and the aligned APK exists, the pass ends without
   * an exception, signs nothing and records nothing, so the loop goes on.
   */
  lemma ParentlessApkPassedOver(r: Run, apk: Path, m: Manifest)
    requires var u := r.w.absolutize(apk);
      && r.w.parent(SignedApkFor(r, u)).None?
      && AlignSucceeded(r, u) && r.w.isPresent(AlignedApk(r, u))
    ensures var p := ProcessApk(r, apk, m);
      p.failure.None? && p.manifest == m && NoSigning(p.trace)
  {
    var u := r.w.absolutize(apk);
    var q := AlignAndSign(r, u, m);
    var p := ProcessApk(r, apk, m);
    assert p.trace == [CreateTempFile(r.zipalignDir, TempPrefix(r, u), ".apk")] + q.trace;
    assert p.failure == q.failure;
  }

  // ------------------------------------------------------------ the loop

  /** The keys the APKs in `apks` are recorded under, when they reach the archive step. */
  function ArchiveKeys(r: Run, apks: seq<Path>): set<string> {
    if apks == [] then {}
    else
      OwnKeys(r, r.w.absolutize(apks[0])) + ArchiveKeys(r, apks[1..])
  }

  /** The keys one APK is recorded under, when it reaches the archive step. */
  function OwnKeys(r: Run, u: Path): set<string> {
    if r.w.parent(SignedApkFor(r, u)).None? then {}
    else
      (if r.archiveUnsignedApks then {UnsignedKey(r, u)} else {})
      + (if r.archiveSignedApks then {SignedKey(r, u)} else {})
  }

  /** The temporary-file prefix each of `apks` gets, in order. */
  function ExpectedTempFiles(r: Run, apks: seq<Path>): (prefixes: seq<string>)
    ensures |prefixes| == |apks|
  {
    if apks == [] then [] else [TempPrefix(r, r.w.absolutize(apks[0]))] + ExpectedTempFiles(r, apks[1..])
  }

  /**
   * The entry `(k, v)` is one that `u` is archived under: its own workspace path
   * under the unsigned name, or the signed APK's path under the signed name.
   */
  predicate EntryOf(r: Run, u: Path, k: string, v: string) {
    || (r.archiveUnsignedApks && k == UnsignedKey(r, u) && v == r.w.relativeToWorkspace(u))
    || (r.archiveSignedApks && k == SignedKey(r, u) && v == r.w.relativeToWorkspace(SignedApkFor(r, u)))
  }

  /**
   * The path `u`'s `put`s leave under `k`, one of its archive keys: the signed
   * APK's path under the signed name, whose `put` comes last, and otherwise
   * `u`'s own path.
   */
  function OwnValue(r: Run, u: Path, k: string): string {
    if r.archiveSignedApks && k == SignedKey(r, u) then r.w.relativeToWorkspace(SignedApkFor(r, u))
    else r.w.relativeToWorkspace(u)
  }

  /**
   * The value the last of `apks` with archive key `k` gives it, or none when
   * no APK has that key.
   */
  function LastValue(r: Run, apks: seq<Path>, k: string): Option<string> {
    if apks == [] then None
    else
      var later := LastValue(r, apks[1..], k);
      var u := r.w.absolutize(apks[0]);
      if later.Some? then later
      else if k in OwnKeys(r, u) then Some(OwnValue(r, u, k))
      else None
  }

  /**
   * The keys the two `put`s append to a manifest with the keys of `m`: the
   * unsigned APK's name if it is new, then the signed APK's name if it is new
   * and not the name just appended.
   */
  function NewKeys(r: Run, u: Path, m: Manifest): seq<string> {
    TwoAppended(Keys(m), UnsignedKey(r, u), r.archiveUnsignedApks, SignedKey(r, u), r.archiveSignedApks)
  }

  /**
   * The two `put`s for a signed APK: the unsigned APK's name goes in before the
   * signed APK's, each appended only when new; so keys stay unique and the old
   * keys stay first.
   */
  lemma RecordedKeys(r: Run, u: Path, m: Manifest)
    ensures Keys(Recorded(r, u, m)) == Keys(m) + NewKeys(r, u, m)
    ensures forall k :: k in Keys(Recorded(r, u, m)) <==>
      k in Keys(m)
      || (r.archiveUnsignedApks && k == UnsignedKey(r, u))
      || (r.archiveSignedApks && k == SignedKey(r, u))
    ensures UniqueKeys(m) ==> UniqueKeys(Recorded(r, u, m))
    ensures Keys(m) <= Keys(Recorded(r, u, m))
  {
    RecordedKeyOrder(r, u, m);
    TwoAppendedExtends(m, Recorded(r, u, m), UnsignedKey(r, u), r.archiveUnsignedApks, SignedKey(r, u), r.archiveSignedApks);
  }

  /** Proof step for `RecordedKeys`: the key order after the two `put`s, from `put`'s own. */
  lemma RecordedKeyOrder(r: Run, u: Path, m: Manifest)
    ensures Keys(Recorded(r, u, m)) == Keys(m) + NewKeys(r, u, m)
  {
    var uk, vu := UnsignedKey(r, u), r.w.relativeToWorkspace(u);
    var sk, vs := SignedKey(r, u), r.w.relativeToWorkspace(SignedApkFor(r, u));
    if r.archiveUnsignedApks && r.archiveSignedApks {
      assert Recorded(r, u, m) == Put(Put(m, uk, vu), sk, vs);
      TwoPutsKeyOrder(m, uk, vu, sk, vs);
    } else if r.archiveUnsignedApks {
      assert Recorded(r, u, m) == Put(m, uk, vu);
    } else if r.archiveSignedApks {
      assert Recorded(r, u, m) == Put(m, sk, vs);
    }
  }

  /** The archive keys of one APK in the order its `put`s use them; none when it is passed over. */
  function ApkKeys(r: Run, u: Path): seq<string> {
    if r.w.parent(SignedApkFor(r, u)).None? then []
    else (if r.archiveUnsignedApks then [UnsignedKey(r, u)] else [])
         + (if r.archiveSignedApks then [SignedKey(r, u)] else [])
  }

  /** The archive keys of `apks`, APK by APK in selection order, repeats included. */
  function AllApkKeys(r: Run, apks: seq<Path>): seq<string> {
    if apks == [] then [] else ApkKeys(r, r.w.absolutize(apks[0])) + AllApkKeys(r, apks[1..])
  }

  /**
   * The key order of a completed loop's manifest, written independently of the
   * loop: every archive key of the selected APKs, in selection order and
   * `put` order, at the place it first occurs.
   */
  function KeysInOrder(r: Run, apks: seq<Path>): seq<string> {
    FirstOccurrences(AllApkKeys(r, apks))
  }

  /** Proof step: the new keys of one APK are what putting its keys in order appends. */
  lemma NewKeysAppended(r: Run, u: Path, m: Manifest)
    requires r.w.parent(SignedApkFor(r, u)).Some?
    ensures Keys(m) + NewKeys(r, u, m) == Appended(Keys(m), ApkKeys(r, u))
  {
    TwoAppendedOrder(Keys(m), UnsignedKey(r, u), r.archiveUnsignedApks, SignedKey(r, u), r.archiveSignedApks);
  }


  /**
   * The paths the two `put`s store: the signed APK's path under the signed
   * name, the unsigned APK's own path under the unsigned name unless the signed
   * name is the same (the later `put` wins), and every other key keeps its value.
   */
  lemma RecordedValues(r: Run, u: Path, m: Manifest)
    ensures r.archiveSignedApks ==>
      Get(Recorded(r, u, m), SignedKey(r, u)) == Some(r.w.relativeToWorkspace(SignedApkFor(r, u)))
    ensures r.archiveUnsignedApks && !(r.archiveSignedApks && SignedKey(r, u) == UnsignedKey(r, u)) ==>
      Get(Recorded(r, u, m), UnsignedKey(r, u)) == Some(r.w.relativeToWorkspace(u))
    ensures forall k ::
      (Get(Recorded(r, u, m), k) == Get(m, k)
       || (Get(Recorded(r, u, m), k).Some? && EntryOf(r, u, k, Get(Recorded(r, u, m), k).value)))
  {
    var vu := r.w.relativeToWorkspace(u);
    var vs := r.w.relativeToWorkspace(SignedApkFor(r, u));
    var m1 := if r.archiveUnsignedApks then Put(m, UnsignedKey(r, u), vu) else m;
    assert Recorded(r, u, m) == if r.archiveSignedApks then Put(m1, SignedKey(r, u), vs) else m1;
    forall k ensures Get(m1, k) == Get(m, k) || (Get(m1, k).Some? && EntryOf(r, u, k, Get(m1, k).value)) {
    }
  }

  /**
   * The loop over the selected APKs, in set order, stopping at the first
   * failure. The manifest only grows, and holds exactly the keys of the APKs
   * that reached the archive step.
   */
  function ProcessAll(r: Run, apks: seq<Path>, m: Manifest): (p: Progress)
    ensures NoArchive(p.trace) && NoGlobListing(p.trace)
    ensures r.skipZipalign ==> NoZipalignLaunch(p.trace)
  {
    if apks == [] then Progress([], m, None)
    else
      var first := ProcessApk(r, apks[0], m);
      if first.failure.Some? then
        first
      else
        var rest := ProcessAll(r, apks[1..], first.manifest);
        Progress(first.trace + rest.trace, rest.manifest, rest.failure)
  }

  /**
   * Every value the loop leaves in the manifest was there before or is the
   * path some processed APK is archived under with that name.
   */
  lemma {:induction false} ProcessAllValues(r: Run, apks: seq<Path>, m: Manifest)
    ensures var p := ProcessAll(r, apks, m);
      forall k :: Get(p.manifest, k) == Get(m, k)
        || (Get(p.manifest, k).Some?
            && exists j :: 0 <= j < |apks| && EntryOf(r, r.w.absolutize(apks[j]), k, Get(p.manifest, k).value))
  {
    if apks != [] {
      var u := r.w.absolutize(apks[0]);
      var first := ProcessApk(r, apks[0], m);
      if first.failure.None? {
        var tail := apks[1..];
        ProcessAllValues(r, tail, first.manifest);
        OutcomeValues(r, u, m, first.manifest);
        var p := ProcessAll(r, apks, m);
        assert p.manifest == ProcessAll(r, tail, first.manifest).manifest;
        forall k | Get(p.manifest, k) != Get(m, k)
          ensures Get(p.manifest, k).Some?
          ensures exists j :: 0 <= j < |apks| && EntryOf(r, r.w.absolutize(apks[j]), k, Get(p.manifest, k).value)
        {
          var v := Get(p.manifest, k);
          if v != Get(first.manifest, k) {
            var j :| 0 <= j < |tail| && EntryOf(r, r.w.absolutize(tail[j]), k, v.value);
            assert tail[j] == apks[j + 1];
          } else {
            assert EntryOf(r, r.w.absolutize(apks[0]), k, v.value);
          }
        }
      }
    }
  }

  /** Proof step for `ProcessAllValues`: the values of either manifest a successful pass can leave. */
  lemma OutcomeValues(r: Run, u: Path, m: Manifest, m': Manifest)
    requires r.w.parent(SignedApkFor(r, u)).None? ==> m' == m
    requires r.w.parent(SignedApkFor(r, u)).Some? ==> m' == Recorded(r, u, m)
    ensures forall k :: Get(m', k) == Get(m, k) || (Get(m', k).Some? && EntryOf(r, u, k, Get(m', k).value))
  {
    RecordedValues(r, u, m);
  }

  /**
   * `LastValue` is decided by the largest position whose APK has the key: it
   * is that APK's own value, and none when no APK has the key.
   */
  lemma {:induction false} LastValueIsLastApk(r: Run, apks: seq<Path>, k: string)
    ensures LastValue(r, apks, k).None? <==> forall j :: 0 <= j < |apks| ==> k !in OwnKeys(r, r.w.absolutize(apks[j]))
    ensures LastValue(r, apks, k).Some? ==>
      exists j :: 0 <= j < |apks| && LastApkWith(r, apks, k, j) && LastValue(r, apks, k).value == OwnValue(r, r.w.absolutize(apks[j]), k)
  {
    if apks != [] {
      var tail := apks[1..];
      LastValueIsLastApk(r, tail, k);
      assert forall j :: 1 <= j < |apks| ==> apks[j] == tail[j - 1];
      if LastValue(r, tail, k).Some? {
        var j :| 0 <= j < |tail| && LastApkWith(r, tail, k, j) && LastValue(r, tail, k).value == OwnValue(r, r.w.absolutize(tail[j]), k);
        assert LastApkWith(r, apks, k, j + 1);
      } else {
        assert LastValue(r, apks, k).Some? ==> LastApkWith(r, apks, k, 0);
      }
    }
  }

  /** When the last of `apks` has archive key `k`, its value is the one `k` keeps. */
  lemma {:induction false} LastApkDecides(r: Run, apks: seq<Path>, k: string)
    requires apks != [] && k in OwnKeys(r, r.w.absolutize(apks[|apks| - 1]))
    ensures LastValue(r, apks, k) == Some(OwnValue(r, r.w.absolutize(apks[|apks| - 1]), k))
  {
    if |apks| > 1 {
      LastApkDecides(r, apks[1..], k);
    }
  }

  /** The APK at position `j` has archive key `k` and no later one has. */
  predicate LastApkWith(r: Run, apks: seq<Path>, k: string, j: nat)
    requires j < |apks|
  {
    && k in OwnKeys(r, r.w.absolutize(apks[j]))
    && forall j' :: j < j' < |apks| ==> k !in OwnKeys(r, r.w.absolutize(apks[j']))
  }

  /** Proof step: `get` after a successful pass, one key at a time. */
  lemma OutcomeGet(r: Run, u: Path, m: Manifest, m': Manifest, k: string)
    requires r.w.parent(SignedApkFor(r, u)).None? ==> m' == m
    requires r.w.parent(SignedApkFor(r, u)).Some? ==> m' == Recorded(r, u, m)
    ensures Get(m', k) == if k in OwnKeys(r, u) then Some(OwnValue(r, u, k)) else Get(m, k)
  {
    OwnKeysMember(r, u, k);
    if r.w.parent(SignedApkFor(r, u)).Some? {
      var m1 := if r.archiveUnsignedApks then Put(m, UnsignedKey(r, u), r.w.relativeToWorkspace(u)) else m;
      assert m' == if r.archiveSignedApks then Put(m1, SignedKey(r, u), r.w.relativeToWorkspace(SignedApkFor(r, u))) else m1;
    }
  }

  /**
   * `get` after the loop: each key holds the path the last APK with that
   * archive key put there, among the APKs the loop finished before it stopped
   * (all of them when it ran to the end); a key no such APK has keeps its old value.
   */
  lemma {:induction false} ProcessAllGet(r: Run, apks: seq<Path>, m: Manifest, k: string)
    ensures var done := apks[..FirstFailing(r, apks)];
      Get(ProcessAll(r, apks, m).manifest, k) == if LastValue(r, done, k).Some? then LastValue(r, done, k) else Get(m, k)
    decreases |apks|, 1
  {
    if apks != [] {
      if ProcessApk(r, apks[0], m).failure.Some? {
        StopsAtFirstPass(r, apks, m);
        assert apks[..FirstFailing(r, apks)] == [];
      } else {
        GetAfterFirstPass(r, apks, m, k);
      }
    }
  }

  /** Proof step for `ProcessAllGet`: a loop whose first pass succeeds. */
  lemma {:induction false} GetAfterFirstPass(r: Run, apks: seq<Path>, m: Manifest, k: string)
    requires apks != [] && ProcessApk(r, apks[0], m).failure.None?
    ensures var done := apks[..FirstFailing(r, apks)];
      Get(ProcessAll(r, apks, m).manifest, k) == if LastValue(r, done, k).Some? then LastValue(r, done, k) else Get(m, k)
    decreases |apks|, 0
  {
    var first := ProcessApk(r, apks[0], m);
    var rest := ProcessAll(r, apks[1..], first.manifest);
    ProcessAllOneMore(r, apks, m, first, rest);
    ProcessAllGet(r, apks[1..], first.manifest, k);
    OutcomeGet(r, r.w.absolutize(apks[0]), m, first.manifest, k);
    assert FirstFailing(r, apks) == 1 + FirstFailing(r, apks[1..]);
    GetThroughPass(r, apks, m, k, first.manifest, rest.manifest, FirstFailing(r, apks[1..]));
  }

  /**
   * Proof step for `ProcessAllGet`: a successful first pass, then the rest of
   * the loop, in terms of the manifests alone.
   */
  lemma GetThroughPass(r: Run, apks: seq<Path>, m: Manifest, k: string, m1: Manifest, m2: Manifest, i': nat)
    requires i' < |apks|
    requires Get(m1, k) == if k in OwnKeys(r, r.w.absolutize(apks[0])) then Some(OwnValue(r, r.w.absolutize(apks[0]), k)) else Get(m, k)
    requires var done := apks[1..][..i'];
      Get(m2, k) == if LastValue(r, done, k).Some? then LastValue(r, done, k) else Get(m1, k)
    ensures var done := apks[..1 + i'];
      Get(m2, k) == if LastValue(r, done, k).Some? then LastValue(r, done, k) else Get(m, k)
  {
    var done := apks[..1 + i'];
    assert done[0] == apks[0] && done[1..] == apks[1..][..i'];
  }

  /** What one successful pass does to the manifest's keys. */
  lemma ProcessApkKeys(r: Run, apk: Path, m: Manifest)
    requires ProcessApk(r, apk, m).failure.None?
    ensures var m' := ProcessApk(r, apk, m).manifest;
      && (UniqueKeys(m) ==> UniqueKeys(m'))
      && Keys(m) <= Keys(m')
      && (forall k :: k in Keys(m') <==> k in Keys(m) || k in OwnKeys(r, r.w.absolutize(apk)))
      && Keys(m') == Appended(Keys(m), ApkKeys(r, r.w.absolutize(apk)))
  {
    var u := r.w.absolutize(apk);
    OutcomeKeys(r, u, m, ProcessApk(r, apk, m).manifest);
  }

  /**
   * A completed loop leaves the keys in the order `put` gives them: the keys
   * of each APK in turn appended, each only where it first comes.
   */
  lemma {:induction false} ProcessAllKeyOrder(r: Run, apks: seq<Path>, m: Manifest)
    requires ProcessAll(r, apks, m).failure.None?
    ensures Keys(ProcessAll(r, apks, m).manifest) == Appended(Keys(m), AllApkKeys(r, apks))
  {
    if apks != [] {
      var u := r.w.absolutize(apks[0]);
      var first := ProcessApk(r, apks[0], m);
      var rest := ProcessAll(r, apks[1..], first.manifest);
      ProcessAllKeyOrder(r, apks[1..], first.manifest);
      OutcomeKeys(r, u, m, first.manifest);
      AppendedConcat(Keys(m), ApkKeys(r, u), AllApkKeys(r, apks[1..]));
    }
  }

  /** Proof step for `ProcessApkKeys`: the keys of either manifest a successful pass can leave. */
  lemma OutcomeKeys(r: Run, u: Path, m: Manifest, m': Manifest)
    requires r.w.parent(SignedApkFor(r, u)).None? ==> m' == m
    requires r.w.parent(SignedApkFor(r, u)).Some? ==> m' == Recorded(r, u, m)
    ensures UniqueKeys(m) ==> UniqueKeys(m')
    ensures Keys(m) <= Keys(m')
    ensures forall k :: k in Keys(m') <==> k in Keys(m) || k in OwnKeys(r, u)
    ensures Keys(m') == Appended(Keys(m), ApkKeys(r, u))
  {
    RecordedKeys(r, u, m);
    if r.w.parent(SignedApkFor(r, u)).Some? {
      NewKeysAppended(r, u, m);
    }
    forall k ensures k in Keys(m') <==> k in Keys(m) || k in OwnKeys(r, u) {
      OwnKeysMember(r, u, k);
    }
  }

  /** Proof step for `OutcomeKeys`: membership in `OwnKeys`, one key at a time. */
  lemma OwnKeysMember(r: Run, u: Path, k: string)
    ensures k in OwnKeys(r, u) <==>
      && r.w.parent(SignedApkFor(r, u)).Some?
      && ((r.archiveUnsignedApks && k == UnsignedKey(r, u)) || (r.archiveSignedApks && k == SignedKey(r, u)))
  {
  }

  /** The manifest the loop builds only grows and never holds a key twice. */
  lemma {:induction false} ProcessAllGrows(r: Run, apks: seq<Path>, m: Manifest)
    ensures var p := ProcessAll(r, apks, m);
      && (UniqueKeys(m) ==> UniqueKeys(p.manifest))
      && Keys(m) <= Keys(p.manifest)
  {
    if apks != [] && ProcessApk(r, apks[0], m).failure.None? {
      var first := ProcessApk(r, apks[0], m);
      ProcessApkKeys(r, apks[0], m);
      ProcessAllGrows(r, apks[1..], first.manifest);
    }
  }

  /**
   * The manifest holds only keys of APKs that reached the archive step, and on
   * success the keys of all of them.
   */
  lemma {:induction false} ProcessAllKeys(r: Run, apks: seq<Path>, m: Manifest)
    ensures var p := ProcessAll(r, apks, m);
      && (forall k :: k in Keys(p.manifest) ==> k in Keys(m) || k in ArchiveKeys(r, apks))
      && (p.failure.None? ==> forall k :: k in ArchiveKeys(r, apks) ==> k in Keys(p.manifest))
  {
    if apks != [] && ProcessApk(r, apks[0], m).failure.None? {
      var first := ProcessApk(r, apks[0], m);
      ProcessApkKeys(r, apks[0], m);
      ProcessAllKeys(r, apks[1..], first.manifest);
      ProcessAllGrows(r, apks[1..], first.manifest);
    }
  }

  /**
   * The APKs are handled one after another in selection order, and after a
   * failing one none is touched: the temporary files created are those of the
   * selection up to and including the first APK whose pass fails, and of all
   * of it on success.
   */
  lemma {:induction false} ProcessAllFailsFast(r: Run, apks: seq<Path>, m: Manifest)
    ensures var p := ProcessAll(r, apks, m);
      && |TempFilesCreated(p.trace)| <= |apks|
      && TempFilesCreated(p.trace) == ExpectedTempFiles(r, apks)[..|TempFilesCreated(p.trace)|]
      && (p.failure.None? ==> TempFilesCreated(p.trace) == ExpectedTempFiles(r, apks))
      && (p.failure.Some? ==> |TempFilesCreated(p.trace)| >= 1)
      && (p.failure.Some? ==> |TempFilesCreated(p.trace)| == FirstFailing(r, apks) + 1)
  {
    if apks != [] {
      var first := ProcessApk(r, apks[0], m);
      var e := TempPrefix(r, r.w.absolutize(apks[0]));
      assert ExpectedTempFiles(r, apks) == [e] + ExpectedTempFiles(r, apks[1..]);
      if first.failure.None? {
        var rest := ProcessAll(r, apks[1..], first.manifest);
        ProcessAllFailsFast(r, apks[1..], first.manifest);
        assert FirstFailing(r, apks) == 1 + FirstFailing(r, apks[1..]);
        TempFilesThenRest(first.trace, rest.trace, e, ExpectedTempFiles(r, apks[1..]), rest.failure.None?);
      }
    }
  }

  /**
   * The position of the first of `apks` whose pass fails, or `|apks|` when
   * every pass succeeds.
   */
  function FirstFailing(r: Run, apks: seq<Path>): (i: nat)
    ensures i <= |apks|
  {
    if apks == [] then 0
    else if !PassSucceeds(r, r.w.absolutize(apks[0])) then 0
    else 1 + FirstFailing(r, apks[1..])
  }

  /** Every pass before `FirstFailing` succeeds, and the one there, if any, does not. */
  lemma {:induction false} FirstFailingIsFirst(r: Run, apks: seq<Path>)
    ensures forall j :: 0 <= j < FirstFailing(r, apks) ==> PassSucceeds(r, r.w.absolutize(apks[j]))
    ensures FirstFailing(r, apks) < |apks| ==> !PassSucceeds(r, r.w.absolutize(apks[FirstFailing(r, apks)]))
  {
    if apks != [] && PassSucceeds(r, r.w.absolutize(apks[0])) {
      FirstFailingIsFirst(r, apks[1..]);
      assert forall j :: 1 <= j < |apks| ==> apks[j] == apks[1..][j - 1];
    }
  }

  /** The loop runs to the end exactly when every selected APK's pass succeeds. */
  lemma {:induction false} ProcessAllSucceeds(r: Run, apks: seq<Path>, m: Manifest)
    ensures ProcessAll(r, apks, m).failure.None? <==> FirstFailing(r, apks) == |apks|
  {
    if apks != [] {
      var first := ProcessApk(r, apks[0], m);
      if first.failure.None? {
        ProcessAllSucceeds(r, apks[1..], first.manifest);
      }
    }
  }

  /**
   * A failing loop is the passes before the first failing APK, run to the
   * end, followed by that APK's pass, whose failure it reports: no later APK
   * is touched, and the manifest is the one the earlier passes left.
   */
  lemma {:induction false} ProcessAllStopsAtFirstFailure(r: Run, apks: seq<Path>, m: Manifest)
    requires ProcessAll(r, apks, m).failure.Some?
    ensures var i := FirstFailing(r, apks);
      && i < |apks|
      && var pre := ProcessAll(r, apks[..i], m);
         var last := ProcessApk(r, apks[i], pre.manifest);
         && pre.failure.None?
         && last.failure.Some?
         && ProcessAll(r, apks, m) == Progress(pre.trace + last.trace, pre.manifest, last.failure)
    decreases |apks|, 1
  {
    ProcessAllSucceeds(r, apks, m);
    if ProcessApk(r, apks[0], m).failure.Some? {
      StopsAtFirstPass(r, apks, m);
    } else {
      StopsAfterFirstPass(r, apks, m);
    }
  }

  /** Proof step for `ProcessAllStopsAtFirstFailure`: a failing loop whose first pass succeeds. */
  lemma {:induction false} StopsAfterFirstPass(r: Run, apks: seq<Path>, m: Manifest)
    requires apks != [] && ProcessApk(r, apks[0], m).failure.None?
    requires ProcessAll(r, apks, m).failure.Some?
    ensures var i := FirstFailing(r, apks);
      && 0 < i < |apks|
      && var pre := ProcessAll(r, apks[..i], m);
         var last := ProcessApk(r, apks[i], pre.manifest);
         && pre.failure.None?
         && last.failure.Some?
         && ProcessAll(r, apks, m) == Progress(pre.trace + last.trace, pre.manifest, last.failure)
    decreases |apks|, 0
  {
    var first := ProcessApk(r, apks[0], m);
    var tail := apks[1..];
    var rest := ProcessAll(r, tail, first.manifest);
    ProcessAllOneMore(r, apks, m, first, rest);
    ProcessAllStopsAtFirstFailure(r, tail, first.manifest);
    var i' := FirstFailing(r, tail);
    var pre' := ProcessAll(r, tail[..i'], first.manifest);
    var last' := ProcessApk(r, tail[i'], pre'.manifest);
    var i := i' + 1;
    assert FirstFailing(r, apks) == i;
    assert apks[..i][0] == apks[0] && apks[..i][1..] == tail[..i'];
    assert apks[i] == tail[i'];
    ProcessAllOneMore(r, apks[..i], m, first, pre');
    ProgressThrough(first, pre', last', ProcessAll(r, apks[..i], m), rest, ProcessAll(r, apks, m));
  }

  /** Proof step for `ProcessAllStopsAtFirstFailure`: the loop whose first pass fails is that pass. */
  lemma StopsAtFirstPass(r: Run, apks: seq<Path>, m: Manifest)
    requires apks != [] && ProcessApk(r, apks[0], m).failure.Some?
    ensures FirstFailing(r, apks) == 0
    ensures ProcessAll(r, apks[..0], m) == Progress([], m, None)
    ensures ProcessAll(r, apks, m) == Progress([] + ProcessApk(r, apks[0], m).trace, m, ProcessApk(r, apks[0], m).failure)
  {
    assert apks[..0] == [];
    assert [] + ProcessApk(r, apks[0], m).trace == ProcessApk(r, apks[0], m).trace;
  }

  /**
   * Proof step for `ProcessAllStopsAtFirstFailure`: a pass in front of a
   * prefix-then-failure loop is a longer prefix, then the same failure.
   */
  lemma ProgressThrough(first: Progress, pre': Progress, last': Progress, pre: Progress, rest: Progress, p: Progress)
    requires rest == Progress(pre'.trace + last'.trace, pre'.manifest, last'.failure)
    requires pre == Progress(first.trace + pre'.trace, pre'.manifest, pre'.failure)
    requires p == Progress(first.trace + rest.trace, rest.manifest, rest.failure)
    ensures p == Progress(pre.trace + last'.trace, pre.manifest, last'.failure)
  {
    assert first.trace + (pre'.trace + last'.trace) == (first.trace + pre'.trace) + last'.trace;
  }

  /** Proof step for `ProcessAllStopsAtFirstFailure`: one successful pass in front of a loop. */
  lemma ProcessAllOneMore(r: Run, apks: seq<Path>, m: Manifest, first: Progress, rest: Progress)
    requires apks != [] && first == ProcessApk(r, apks[0], m) && first.failure.None?
    requires rest == ProcessAll(r, apks[1..], first.manifest)
    ensures ProcessAll(r, apks, m) == Progress(first.trace + rest.trace, rest.manifest, rest.failure)
  {
  }

  /**
   * Proof step for `ProcessAllFailsFast`: one pass that created exactly the
   * file `e`, followed by passes that created a prefix of `rest`, created a
   * prefix of `[e] + rest`.
   */
  lemma TempFilesThenRest(t1: seq<Effect>, t2: seq<Effect>, e: string, rest: seq<string>, complete: bool)
    requires TempFilesCreated(t1) == [e]
    requires |TempFilesCreated(t2)| <= |rest| && TempFilesCreated(t2) == rest[..|TempFilesCreated(t2)|]
    requires complete ==> TempFilesCreated(t2) == rest
    ensures var c := TempFilesCreated(t1 + t2);
      && |c| == 1 + |TempFilesCreated(t2)|
      && 1 <= |c| <= |rest| + 1
      && c == ([e] + rest)[..|c|]
      && (complete ==> c == [e] + rest)
  {
    TempFilesCreatedAppend(t1, t2);
  }

  // ------------------------------------------------------------ perform

  /**
   * What the loop uses of the builder: a null mapping means the sibling
   * mapping, and the tool locations go to the `ZipalignTool`.
   */
  function RunFor(b: Builder, keys: SigningComponents, workspace: Path, w: World): (r: Run)
    ensures r.mapping == if b.signedApkMapping.None? then UnsignedApkSiblingMapping else b.signedApkMapping.value
    ensures r.androidHome == b.androidHome && r.zipalignPath == b.zipalignPath
    ensures r.archivePrefix == ArchivePrefix(b.keyStoreId, b.keyAlias)
    ensures r.skipZipalign == b.skipZipalign
    ensures r.archiveUnsignedApks == b.archiveUnsignedApks && r.archiveSignedApks == b.archiveSignedApks
  {
    Run(w, ZipalignDir(workspace), keys,
        if b.signedApkMapping.Some? then b.signedApkMapping.value else UnsignedApkSiblingMapping,
        ArchivePrefix(b.keyStoreId, b.keyAlias),
        b.skipZipalign, b.archiveUnsignedApks, b.archiveSignedApks,
        b.androidHome, b.zipalignPath)
  }

  /**
   * The artifact manager is called at most once, as the last effect of a run
   * that completed, and never with an empty manifest.
   */
  predicate ArchivesOnlyAtEnd(o: Outcome) {
    forall i :: 0 <= i < |o.trace| && o.trace[i].Archive? ==>
      i == |o.trace| - 1 && o.status == Completed && |o.trace[i].manifest| > 0
  }

  /** After the loop: abort with its failure, or archive the manifest when it is not empty. */
  function Finish(before: seq<Effect>, p: Progress): (o: Outcome)
    requires NoArchive(before)
    ensures ArchivesOnlyAtEnd(o)
    ensures o.status == Completed <==> p.failure.None?
    ensures o.status.Aborted? ==> o.status.failure == p.failure.value
    ensures |before| <= |o.trace| && o.trace[..|before|] == before
    ensures o.status == Completed && p.manifest != [] ==> o.trace == before + [Archive(p.manifest)]
    ensures o.status == Completed && p.manifest == [] ==> o.trace == before
    ensures o.status.Aborted? ==> o.trace == before
  {
    if p.failure.Some? then Outcome(before, Aborted(p.failure.value))
    else if |p.manifest| > 0 then Outcome(before + [Archive(p.manifest)], Completed)
    else Outcome(before, Completed)
  }

  /** The loop over the selected APKs and the archive call. */
  function ProcessSelected(b: Builder, keys: SigningComponents, apks: seq<Path>, workspace: Path, w: World,
                           before: seq<Effect>): (o: Outcome)
    requires NoArchive(before)
    ensures |before| <= |o.trace| && o.trace[..|before|] == before
    ensures o.status != Skipped
    ensures ArchivesOnlyAtEnd(o)
    ensures b.skipZipalign && NoZipalignLaunch(before) ==> NoZipalignLaunch(o.trace)
  {
    var p := ProcessAll(RunFor(b, keys, workspace, w), apks, []);
    Finish(before + p.trace, p)
  }

  /**
   * Selection, the loop and the archive call, once the key material is read
   * and the globs are known; `before` is what the run has done so far.
   */
  function SignMatching(b: Builder, keys: SigningComponents, globs: seq<string>, workspace: Path, w: World,
                        before: seq<Effect>): (o: Outcome)
    requires NoArchive(before)
    ensures |before| <= |o.trace| && o.trace[..|before|] == before
    ensures o.status != Skipped
    ensures ArchivesOnlyAtEnd(o)
    ensures b.skipZipalign && NoZipalignLaunch(before) ==> NoZipalignLaunch(o.trace)
  {
    var sel := Select(w, globs, []);
    match sel.result
    case Err(f) => Outcome(before + sel.trace, Aborted(f))
    case Ok(apks) => ProcessSelected(b, keys, apks, workspace, w, before + sel.trace)
  }

  /** `perform` for a builder without legacy entries, past the skip check. */
  function PerformMigrated(b: Builder, workspace: Path, w: World): (o: Outcome)
    ensures |o.trace| >= 1 && o.trace[0] == MakeDirs(ZipalignDir(workspace))
    ensures o.status != Skipped
    ensures ArchivesOnlyAtEnd(o)
    ensures b.skipZipalign ==> NoZipalignLaunch(o.trace)
  {
    var start := [MakeDirs(ZipalignDir(workspace))];
    match w.signingComponents(b.keyStoreId, b.keyAlias)
    case Err(detail) => Outcome(start, Aborted(KeyStoreUnreadable(Render(b.keyStoreId), detail)))
    case Ok(keys) =>
      match b.apksToSign
      case None => Outcome(start, Aborted(ApksToSignNull))
      case Some(value) => SignMatching(b, keys, GetSelectionGlobs(value), workspace, w, start)
  }

  /** `perform`. */
  function Perform(b: Builder, result: Option<BuildResult>, workspace: Path, w: World): (o: Outcome)
    ensures IsIntermediateFailure(result) ==> o == Outcome([], Skipped)
    ensures !IsIntermediateFailure(result) ==> o.status != Skipped
    decreases if IsMigrated(b) then 0 else 1, 0
  {
    if IsIntermediateFailure(result) then Outcome([], Skipped)
    else if !IsMigrated(b) then PerformEach(SingleEntryBuilders(b), result, workspace, w)
    else PerformMigrated(b, workspace, w)
  }

  /** The delegation loop: `perform` on each single-entry builder, stopping at the first abort. */
  function PerformEach(bs: seq<Builder>, result: Option<BuildResult>, workspace: Path, w: World): (o: Outcome)
    requires !IsIntermediateFailure(result)
    requires forall i :: 0 <= i < |bs| ==> IsMigrated(bs[i])
    ensures o.status != Skipped
    decreases 0, |bs|
  {
    if bs == [] then Outcome([], Completed)
    else
      var first := Perform(bs[0], result, workspace, w);
      if first.status.Aborted? then first
      else
        var rest := PerformEach(bs[1..], result, workspace, w);
        Outcome(first.trace + rest.trace, rest.status)
  }
}

=== FILE: perform_properties.dfy ===
/**
 * What `perform` promises across all worlds: when it archives, what it stops
 * before on each failure, what the archive holds and under which names, and
 * how a legacy multi-entry builder is carried out.
 */
module PerformProperties {
  import opened Wrappers
  import opened JavaStrings
  import opened SelectionGlobs
  import opened PathSet
  import opened ArchiveManifest
  import opened BuilderConfig
  import opened Effects
  import opened SignApk
  import opened BuildStep

  // ------------------------------------------------------------ archiving

  /** Every artifact name starts with `SignApksBuilder-out/<keyStoreId>/<keyAlias>/`. */
  lemma {:induction false} ArchiveKeysNamespaced(r: Run, apks: seq<Path>)
    ensures forall k :: k in ArchiveKeys(r, apks) ==> r.archivePrefix <= k
  {
    if apks != [] {
      ArchiveKeysNamespaced(r, apks[1..]);
      var u := r.w.absolutize(apks[0]);
      assert UnsignedKey(r, u) == r.archivePrefix + (r.w.name(u) + "/" + r.w.name(u));
      assert SignedKey(r, u) == r.archivePrefix + (r.w.name(u) + "/" + r.w.name(SignedApkFor(r, u)));
    }
  }

  /** `keys` and the manifest's keys are the same set, and no key repeats. */
  ghost predicate HoldsExactly(m: Manifest, keys: set<string>) {
    UniqueKeys(m) && forall k :: k in Keys(m) <==> k in keys
  }

  /**
   * Every name maps to the path the last of `apks` archived under that name
   * put there, since a later `put` replaces an earlier value, and a name no APK
   * has is absent.
   */
  ghost predicate LastPutValues(m: Manifest, r: Run, apks: seq<Path>) {
    forall k :: Get(m, k) == LastValue(r, apks, k)
  }

  /** Every key of the manifest starts with `prefix`. */
  predicate AllUnder(m: Manifest, prefix: string) {
    forall i :: 0 <= i < |m| ==> prefix <= m[i].0
  }

  /**
   * A completed run archives exactly when some of `apks` reached the archive
   * step with an archive flag set, and then archives, as its last effect, one
   * entry per distinct artifact name of those APKs, in the order the `put`s
   * first gave them, each holding the path the last `put` left, all under the
   * run's namespace.
   */
  ghost predicate ArchivesSelected(o: Outcome, r: Run, apks: seq<Path>) {
    o.status == Completed ==>
      && (NoArchive(o.trace) <==> ArchiveKeys(r, apks) == {})
      && (ArchiveKeys(r, apks) != {} ==>
            && o.trace[|o.trace| - 1].Archive?
            && HoldsExactly(o.trace[|o.trace| - 1].manifest, ArchiveKeys(r, apks))
            && LastPutValues(o.trace[|o.trace| - 1].manifest, r, apks)
            && Keys(o.trace[|o.trace| - 1].manifest) == KeysInOrder(r, apks)
            && AllUnder(o.trace[|o.trace| - 1].manifest, r.archivePrefix))
  }

  /**
   * After selection, a completed run archives exactly when some selected APK
   * reached the archive step with an archive flag set, and then archives one
   * entry per distinct artifact name of those APKs, all under the builder's
   * namespace, each mapped to the path the last `put` for that name left.
   */
  lemma ProcessedManifestContents(b: Builder, keys: SigningComponents, apks: seq<Path>, workspace: Path, w: World,
                                  before: seq<Effect>)
    requires NoArchive(before)
    ensures ArchivesSelected(ProcessSelected(b, keys, apks, workspace, w, before), RunFor(b, keys, workspace, w), apks)
  {
    var r := RunFor(b, keys, workspace, w);
    var p := ProcessAll(r, apks, []);
    var o := ProcessSelected(b, keys, apks, workspace, w, before);
    if p.failure.None? {
      LoopManifest(r, apks);
      if |p.manifest| > 0 {
        assert o.trace == before + p.trace + [Archive(p.manifest)];
        assert !NoArchive(o.trace) by {
          assert o.trace[|o.trace| - 1].Archive?;
        }
        assert p.manifest[0].0 in Keys(p.manifest);
      } else {
        assert o.trace == before + p.trace;
        assert Keys(p.manifest) == [];
      }
    }
  }

  /**
   * A loop that ran to the end leaves exactly the archive keys, once each, in
   * the namespace and in `put` order, each holding the last `put`'s path.
   */
  lemma LoopManifest(r: Run, apks: seq<Path>)
    requires ProcessAll(r, apks, []).failure.None?
    ensures HoldsExactly(ProcessAll(r, apks, []).manifest, ArchiveKeys(r, apks))
    ensures AllUnder(ProcessAll(r, apks, []).manifest, r.archivePrefix)
    ensures LastPutValues(ProcessAll(r, apks, []).manifest, r, apks)
    ensures Keys(ProcessAll(r, apks, []).manifest) == KeysInOrder(r, apks)
  {
    var m := ProcessAll(r, apks, []).manifest;
    ProcessAllKeyOrder(r, apks, []);
    AppendedFirstOccurrences([], AllApkKeys(r, apks));
    assert [] + AllApkKeys(r, apks) == AllApkKeys(r, apks);
    ProcessAllSucceeds(r, apks, []);
    forall k ensures Get(m, k) == LastValue(r, apks, k) {
      ProcessAllGet(r, apks, [], k);
      assert apks[..|apks|] == apks;
    }
    ProcessAllKeys(r, apks, []);
    ProcessAllGrows(r, apks, []);
    ArchiveKeysNamespaced(r, apks);
    forall i | 0 <= i < |m| ensures r.archivePrefix <= m[i].0 {
      assert m[i].0 in Keys(m);
    }
  }

  /**
   * Proof step for `ArchivedManifestContents`: a run whose key store is
   * readable and whose globs all match goes on to the loop.
   */
  lemma PerformMigratedReachesLoop(b: Builder, workspace: Path, w: World, keys: SigningComponents, apks: seq<Path>,
                                   before: seq<Effect>)
    requires w.signingComponents(b.keyStoreId, b.keyAlias) == Ok(keys) && b.apksToSign.Some?
    requires Select(w, GetSelectionGlobs(b.apksToSign.value), []).result == Ok(apks)
    requires before == [MakeDirs(ZipalignDir(workspace))] + Select(w, GetSelectionGlobs(b.apksToSign.value), []).trace
    requires NoArchive(before)
    ensures PerformMigrated(b, workspace, w) == ProcessSelected(b, keys, apks, workspace, w, before)
  {
  }

  /**
   * The same for the whole step: when the key store is readable and every glob
   * matches, a completed run archives the selected APKs' artifact names and
   * nothing else.
   */
  lemma ArchivedManifestContents(b: Builder, workspace: Path, w: World)
    requires w.signingComponents(b.keyStoreId, b.keyAlias).Ok? && b.apksToSign.Some?
    requires AllMatch(w, GetSelectionGlobs(b.apksToSign.value))
    ensures ArchivesSelected(PerformMigrated(b, workspace, w),
                             RunFor(b, w.signingComponents(b.keyStoreId, b.keyAlias).value, workspace, w),
                             Select(w, GetSelectionGlobs(b.apksToSign.value), []).result.value)
  {
    var keys := w.signingComponents(b.keyStoreId, b.keyAlias).value;
    var sel := Select(w, GetSelectionGlobs(b.apksToSign.value), []);
    var before := [MakeDirs(ZipalignDir(workspace))] + sel.trace;
    SelectionArchivesNothing(w, GetSelectionGlobs(b.apksToSign.value), workspace);
    PerformMigratedReachesLoop(b, workspace, w, keys, sel.result.value, before);
    ProcessedManifestContents(b, keys, sel.result.value, workspace, w, before);
    SameOutcomeArchivesAlike(PerformMigrated(b, workspace, w), ProcessSelected(b, keys, sel.result.value, workspace, w, before),
                             RunFor(b, keys, workspace, w), sel.result.value);
  }

  /**
   * Proof step for `ArchivedManifestContents`: making the zipalign directory
   * and listing the globs archives nothing.
   */
  lemma SelectionArchivesNothing(w: World, globs: seq<string>, workspace: Path)
    ensures NoArchive([MakeDirs(ZipalignDir(workspace))] + Select(w, globs, []).trace)
  {
  }

  /**
   * Proof step for `ArchivedManifestContents`: carries `ArchivesSelected`
   * across an equation between outcomes without unfolding either side.
   */
  lemma SameOutcomeArchivesAlike(o1: Outcome, o2: Outcome, r: Run, apks: seq<Path>)
    requires o1 == o2 && ArchivesSelected(o2, r, apks)
    ensures ArchivesSelected(o1, r, apks)
  {
  }

  // ------------------------------------------------------------ early stops

  /** An unreadable key store stops the run right after the zipalign directory is made. */
  lemma KeyFailureStopsBeforeSelection(b: Builder, workspace: Path, w: World)
    requires w.signingComponents(b.keyStoreId, b.keyAlias).Err?
    ensures var o := PerformMigrated(b, workspace, w);
      && o.status == Aborted(KeyStoreUnreadable(Render(b.keyStoreId), w.signingComponents(b.keyStoreId, b.keyAlias).error))
      && o.trace == [MakeDirs(ZipalignDir(workspace))]
      && NoGlobListing(o.trace) && NoApkWork(o.trace) && NoArchive(o.trace)
  {
  }

  /**
   * The run stopped at the `k`-th glob, which matched nothing: every glob before
   * it matched something, and the trace is the tool directory followed by the
   * listings of the globs up to and including it.
   */
  predicate StoppedAtGlob(o: Outcome, w: World, globs: seq<string>, workspace: Path, k: nat) {
    && k < |globs|
    && o.status == Aborted(NoApksMatching(globs[k]))
    && w.list(globs[k], BuilderDirExcludes) == []
    && AllMatch(w, globs[..k])
    && |o.trace| == k + 2
    && o.trace[0] == MakeDirs(ZipalignDir(workspace))
    && forall i :: 0 <= i <= k ==> o.trace[i + 1] == ListGlob(globs[i], BuilderDirExcludes)
  }

  /**
   * A glob that matches nothing stops the run before any APK is touched, and
   * the failure names the first such glob: every glob before it was listed and
   * matched something, none after it was listed.
   */
  lemma UnmatchedGlobStopsBeforeApkWork(b: Builder, workspace: Path, w: World)
    requires w.signingComponents(b.keyStoreId, b.keyAlias).Ok? && b.apksToSign.Some?
    requires !AllMatch(w, GetSelectionGlobs(b.apksToSign.value))
    ensures var o := PerformMigrated(b, workspace, w);
      && NoApkWork(o.trace) && NoArchive(o.trace)
      && exists k :: StoppedAtGlob(o, w, GetSelectionGlobs(b.apksToSign.value), workspace, k)
  {
    var globs := GetSelectionGlobs(b.apksToSign.value);
    SelectionFailureOutcome(b, workspace, w, globs);
    FailedSelectionStops(w, globs, workspace);
    var sel := Select(w, globs, []);
    StoppedRunTouchedNoApk(PerformMigrated(b, workspace, w), w, globs, workspace, |sel.trace| - 1);
  }

  lemma FailedSelectionStops(w: World, globs: seq<string>, workspace: Path)
    requires Select(w, globs, []).result.Err?
    ensures var sel := Select(w, globs, []);
      StoppedAtGlob(Outcome([MakeDirs(ZipalignDir(workspace))] + sel.trace, Aborted(sel.result.error)),
                    w, globs, workspace, |sel.trace| - 1)
  {
    var sel := Select(w, globs, []);
    SelectStopsAtFirstUnmatched(w, globs, []);
    var t := [MakeDirs(ZipalignDir(workspace))] + sel.trace;
    assert forall i :: 0 <= i < |sel.trace| ==> t[i + 1] == sel.trace[i];
  }

  /** A run that stopped at a glob only created the tool directory and listed globs. */
  lemma StoppedRunTouchedNoApk(o: Outcome, w: World, globs: seq<string>, workspace: Path, k: nat)
    requires StoppedAtGlob(o, w, globs, workspace, k)
    ensures NoApkWork(o.trace) && NoArchive(o.trace)
  {
    forall i | 0 <= i < |o.trace|
      ensures o.trace[i].MakeDirs? || o.trace[i].ListGlob?
    {
      if i > 0 {
        var j := i - 1;
        assert o.trace[j + 1] == ListGlob(globs[j], BuilderDirExcludes);
      }
    }
  }

  /** A failed selection ends the run with the selection's own trace and error. */
  lemma SelectionFailureOutcome(b: Builder, workspace: Path, w: World, globs: seq<string>)
    requires w.signingComponents(b.keyStoreId, b.keyAlias).Ok? && b.apksToSign.Some?
    requires globs == GetSelectionGlobs(b.apksToSign.value)
    requires Select(w, globs, []).result.Err?
    ensures var sel := Select(w, globs, []);
      PerformMigrated(b, workspace, w) == Outcome([MakeDirs(ZipalignDir(workspace))] + sel.trace, Aborted(sel.result.error))
  {
  }

  // ------------------------------------------------------------ namespaces

  /** The index of the first `/` in `s`, or its length. */
  function FirstSlash(s: string): (n: nat)
    ensures n <= |s|
    ensures forall i :: 0 <= i < n ==> s[i] != '/'
    ensures n < |s| ==> s[n] == '/'
  {
    if s == [] || s[0] == '/' then 0 else 1 + FirstSlash(s[1..])
  }

  lemma {:induction false} FirstSlashAfter(x: string, s: string)
    requires '/' !in x && x + "/" <= s
    ensures FirstSlash(s) == |x|
  {
    if x != [] {
      assert s[0] == x[0];
      assert x[1..] + "/" <= s[1..] by {
        assert forall i :: 0 <= i < |x[1..] + "/"| ==> (x[1..] + "/")[i] == (x + "/")[i + 1];
      }
      FirstSlashAfter(x[1..], s[1..]);
    }
  }

  /** A slash-free segment ended by `/` at the start of a string is determined by that string. */
  lemma SegmentUnique(x1: string, x2: string, s: string)
    requires '/' !in x1 && '/' !in x2
    requires x1 + "/" <= s && x2 + "/" <= s
    ensures x1 == x2
  {
    FirstSlashAfter(x1, s);
    FirstSlashAfter(x2, s);
    assert x1 == (x1 + "/")[..|x1|] == s[..|x1|];
    assert x2 == (x2 + "/")[..|x2|] == s[..|x2|];
  }

  /**
   * Two builders whose key store ids and aliases render differently, and
   * contain no `/`, never produce the same artifact name. Note that the ids are
   * compared as rendered: a null id and the id `null` share a namespace.
   */
  lemma NamespacesDisjoint(ks1: Option<string>, a1: Option<string>, ks2: Option<string>, a2: Option<string>, k: string)
    requires '/' !in Render(ks1) && '/' !in Render(a1) && '/' !in Render(ks2) && '/' !in Render(a2)
    requires ArchivePrefix(ks1, a1) <= k && ArchivePrefix(ks2, a2) <= k
    ensures Render(ks1) == Render(ks2) && Render(a1) == Render(a2)
  {
    SegmentsAfterHead(BuilderDir + "/", Render(ks1), Render(a1), Render(ks2), Render(a2), k);
  }

  lemma SegmentsAfterHead(head: string, x1: string, y1: string, x2: string, y2: string, k: string)
    requires '/' !in x1 && '/' !in y1 && '/' !in x2 && '/' !in y2
    requires head + x1 + "/" + y1 + "/" <= k && head + x2 + "/" + y2 + "/" <= k
    ensures x1 == x2 && y1 == y2
  {
    assert head + x1 + "/" + y1 + "/" == head + ((x1 + "/") + (y1 + "/"));
    assert head + x2 + "/" + y2 + "/" == head + ((x2 + "/") + (y2 + "/"));
    PrefixDrop(head, (x1 + "/") + (y1 + "/"), k);
    PrefixDrop(head, (x2 + "/") + (y2 + "/"), k);
    TwoSegments(x1, y1, x2, y2, k[|head|..]);
  }

  /** Two slash-free segments, each ended by `/`, at the start of a string are determined by it. */
  lemma TwoSegments(x1: string, y1: string, x2: string, y2: string, t: string)
    requires '/' !in x1 && '/' !in y1 && '/' !in x2 && '/' !in y2
    requires (x1 + "/") + (y1 + "/") <= t && (x2 + "/") + (y2 + "/") <= t
    ensures x1 == x2 && y1 == y2
  {
    PrefixOfPrefix(x1 + "/", y1 + "/", t);
    PrefixOfPrefix(x2 + "/", y2 + "/", t);
    SegmentUnique(x1, x2, t);
    PrefixDrop(x1 + "/", y1 + "/", t);
    PrefixDrop(x2 + "/", y2 + "/", t);
    SegmentUnique(y1, y2, t[|x1| + 1..]);
  }

  lemma PrefixDrop(a: string, b: string, s: string)
    requires a + b <= s
    ensures b <= s[|a|..]
  {
    assert forall i :: 0 <= i < |b| ==> b[i] == (a + b)[|a| + i];
  }

  lemma PrefixOfPrefix(a: string, b: string, s: string)
    requires a + b <= s
    ensures a <= s
  {
    assert forall i :: 0 <= i < |a| ==> a[i] == (a + b)[i];
  }

  /**
   * Builders signing with different credentials or aliases archive under
   * disjoint names, whatever APKs they select.
   */
  lemma DistinctKeysArchiveApart(b1: Builder, keys1: SigningComponents, apks1: seq<Path>,
                                 b2: Builder, keys2: SigningComponents, apks2: seq<Path>,
                                 workspace: Path, w: World)
    requires '/' !in Render(b1.keyStoreId) && '/' !in Render(b1.keyAlias)
    requires '/' !in Render(b2.keyStoreId) && '/' !in Render(b2.keyAlias)
    requires Render(b1.keyStoreId) != Render(b2.keyStoreId) || Render(b1.keyAlias) != Render(b2.keyAlias)
    ensures ArchiveKeys(RunFor(b1, keys1, workspace, w), apks1) !! ArchiveKeys(RunFor(b2, keys2, workspace, w), apks2)
  {
    var r1 := RunFor(b1, keys1, workspace, w);
    var r2 := RunFor(b2, keys2, workspace, w);
    ArchiveKeysNamespaced(r1, apks1);
    ArchiveKeysNamespaced(r2, apks2);
    forall k | k in ArchiveKeys(r1, apks1) && k in ArchiveKeys(r2, apks2)
      ensures false
    {
      NamespacesDisjoint(b1.keyStoreId, b1.keyAlias, b2.keyStoreId, b2.keyAlias, k);
    }
  }

  /** Every artifact name of `u` starts with the namespace and then `u`'s own name as a directory. */
  lemma OwnKeyShape(r: Run, u: Path, k: string)
    requires k in OwnKeys(r, u)
    ensures r.archivePrefix + (r.w.name(u) + "/") <= k
  {
    var head := r.archivePrefix + (r.w.name(u) + "/");
    if k == UnsignedKey(r, u) {
      assert k == head + r.w.name(u);
    } else {
      assert k == head + r.w.name(SignedApkFor(r, u));
    }
  }

  /**
   * Within one namespace, APKs with different names never share an artifact
   * name, whether one builder or two archive them: the unsigned APK's name is
   * the directory both of its artifacts go into.
   */
  lemma SameNamespaceApart(r1: Run, u1: Path, r2: Run, u2: Path)
    requires r1.archivePrefix == r2.archivePrefix
    requires '/' !in r1.w.name(u1) && '/' !in r2.w.name(u2)
    requires r1.w.name(u1) != r2.w.name(u2)
    ensures OwnKeys(r1, u1) !! OwnKeys(r2, u2)
  {
    forall k | k in OwnKeys(r1, u1) && k in OwnKeys(r2, u2)
      ensures false
    {
      OwnKeyShape(r1, u1, k);
      OwnKeyShape(r2, u2, k);
      PrefixDrop(r1.archivePrefix, r1.w.name(u1) + "/", k);
      PrefixDrop(r1.archivePrefix, r2.w.name(u2) + "/", k);
      SegmentUnique(r1.w.name(u1), r2.w.name(u2), k[|r1.archivePrefix|..]);
    }
  }

  // ------------------------------------------------------------ zipalign

  /**
   * Zipalign is the tool found from the builder's own Android home and zipalign
   * path override: every zipalign launch for an APK runs the command that tool
   * builds, and a tool that cannot be found aborts with its message.
   */
  lemma ZipalignFromToolLocations(b: Builder, keys: SigningComponents, workspace: Path, w: World,
                                  apk: Path, m: Manifest)
    requires !b.skipZipalign
    ensures var r := RunFor(b, keys, workspace, w);
      var u := w.absolutize(apk);
      var cmd := w.zipalignCommand(b.androidHome, b.zipalignPath, u, TempFileFor(r, u));
      var p := ProcessApk(r, apk, m);
      && (forall i :: 0 <= i < |p.trace| && p.trace[i].LaunchZipalign? ==> cmd == Ok(p.trace[i].command))
      && (cmd.Ok? ==> |p.trace| >= 2 && p.trace[1] == LaunchZipalign(cmd.value))
      && (cmd.Err? ==> p.failure == Some(ZipalignNotFound(cmd.error)))
  {
    ProcessApkLaunch(RunFor(b, keys, workspace, w), apk, m);
  }

  // ------------------------------------------------------------ selection

  /** A path is matched when any of the globs lists it. */
  lemma {:induction false} MatchesOfAnyGlob(w: World, globs: seq<string>)
    ensures forall p :: p in Matches(w, globs) <==>
      exists i :: 0 <= i < |globs| && p in w.list(globs[i], BuilderDirExcludes)
  {
    if globs != [] {
      MatchesOfAnyGlob(w, globs[1..]);
      forall p | p in Matches(w, globs)
        ensures exists i :: 0 <= i < |globs| && p in w.list(globs[i], BuilderDirExcludes)
      {
        if p !in w.list(globs[0], BuilderDirExcludes) {
          assert p in Matches(w, globs[1..]);
          var j :| 0 <= j < |globs[1..]| && p in w.list(globs[1..][j], BuilderDirExcludes);
          assert globs[1..][j] == globs[j + 1];
        }
      }
      forall p, i | 0 <= i < |globs| && p in w.list(globs[i], BuilderDirExcludes)
        ensures p in Matches(w, globs)
      {
        if i > 0 {
          assert globs[1..][i - 1] == globs[i];
        }
      }
    }
  }

  /**
   * The selected APKs depend only on which globs are given, not on their order
   * or repetition, and are listed in path order with no path twice.
   */
  lemma SelectionIgnoresGlobOrder(w: World, globs1: seq<string>, globs2: seq<string>)
    requires forall g :: g in globs1 <==> g in globs2
    ensures Select(w, globs1, []).result.Ok? <==> Select(w, globs2, []).result.Ok?
    ensures Select(w, globs1, []).result.Ok? ==>
      && Select(w, globs1, []).result == Select(w, globs2, []).result
      && Distinct(Select(w, globs1, []).result.value)
  {
    var s1 := Select(w, globs1, []);
    var s2 := Select(w, globs2, []);
    assert AllMatch(w, globs1) <==> AllMatch(w, globs2) by {
      if AllMatch(w, globs1) {
        forall i | 0 <= i < |globs2| ensures w.list(globs2[i], BuilderDirExcludes) != [] {
          assert globs2[i] in globs1;
          var j :| 0 <= j < |globs1| && globs1[j] == globs2[i];
        }
      }
      if AllMatch(w, globs2) {
        forall i | 0 <= i < |globs1| ensures w.list(globs1[i], BuilderDirExcludes) != [] {
          assert globs1[i] in globs2;
          var j :| 0 <= j < |globs2| && globs2[j] == globs1[i];
        }
      }
    }
    if s1.result.Ok? {
      SelectCollectsMatches(w, globs1, []);
      SelectCollectsMatches(w, globs2, []);
      MatchesOfAnyGlob(w, globs1);
      MatchesOfAnyGlob(w, globs2);
      forall p ensures p in s1.result.value <==> p in s2.result.value {
        if p in s1.result.value {
          var i :| 0 <= i < |globs1| && p in w.list(globs1[i], BuilderDirExcludes);
          assert globs1[i] in globs2;
          var j :| 0 <= j < |globs2| && globs2[j] == globs1[i];
        }
        if p in s2.result.value {
          var i :| 0 <= i < |globs2| && p in w.list(globs2[i], BuilderDirExcludes);
          assert globs2[i] in globs1;
          var j :| 0 <= j < |globs1| && globs1[j] == globs2[i];
        }
      }
      AscendingUnique(s1.result.value, s2.result.value);
      forall i, j | 0 <= i < j < |s1.result.value|
        ensures s1.result.value[i] != s1.result.value[j]
      {
        BelowIrreflexive(s1.result.value[i]);
      }
    }
  }

  // ------------------------------------------------------------ delegation

  /** Each builder's outcome when run on its own, in order. */
  function Outcomes(bs: seq<Builder>, result: Option<BuildResult>, workspace: Path, w: World): (os: seq<Outcome>)
    ensures |os| == |bs|
  {
    if bs == [] then [] else [Perform(bs[0], result, workspace, w)] + Outcomes(bs[1..], result, workspace, w)
  }

  lemma {:induction false} OutcomesAt(bs: seq<Builder>, result: Option<BuildResult>, workspace: Path, w: World, i: nat)
    requires i < |bs|
    ensures Outcomes(bs, result, workspace, w)[i] == Perform(bs[i], result, workspace, w)
  {
    if i > 0 {
      OutcomesAt(bs[1..], result, workspace, w, i - 1);
      assert bs[1..][i - 1] == bs[i];
    }
  }

  /** Past the skip check, no single-entry builder's outcome is a skip. */
  lemma OutcomesNeverSkipped(bs: seq<Builder>, result: Option<BuildResult>, workspace: Path, w: World)
    requires !IsIntermediateFailure(result)
    ensures forall i :: 0 <= i < |bs| ==> Outcomes(bs, result, workspace, w)[i].status != Skipped
  {
    forall i | 0 <= i < |bs| ensures Outcomes(bs, result, workspace, w)[i].status != Skipped {
      OutcomesAt(bs, result, workspace, w, i);
    }
  }

  /**
   * Outcomes run one after another: the traces up to and including the first
   * abort, ending with that abort's status, or completed when none aborts.
   */
  function Chain(os: seq<Outcome>): Outcome {
    if os == [] then Outcome([], Completed)
    else if os[0].status.Aborted? then os[0]
    else
      var rest := Chain(os[1..]);
      Outcome(os[0].trace + rest.trace, rest.status)
  }

  /** The delegation loop chains the single-entry builders' outcomes. */
  lemma {:induction false} PerformEachChains(bs: seq<Builder>, result: Option<BuildResult>, workspace: Path, w: World)
    requires !IsIntermediateFailure(result)
    requires forall i :: 0 <= i < |bs| ==> IsMigrated(bs[i])
    ensures PerformEach(bs, result, workspace, w) == Chain(Outcomes(bs, result, workspace, w))
  {
    if bs != [] {
      PerformEachChains(bs[1..], result, workspace, w);
      assert Outcomes(bs, result, workspace, w)[1..] == Outcomes(bs[1..], result, workspace, w);
    }
  }

  /** A chain completes exactly when every outcome does, and otherwise ends with the first abort. */
  lemma {:induction false} ChainStopsAtFirstAbort(os: seq<Outcome>)
    requires forall i :: 0 <= i < |os| ==> os[i].status != Skipped
    ensures Chain(os).status == Completed <==> forall i :: 0 <= i < |os| ==> os[i].status == Completed
    ensures Chain(os).status.Aborted? ==>
      exists i :: 0 <= i < |os| && os[i].status == Chain(os).status
        && forall j :: 0 <= j < i ==> os[j].status == Completed
  {
    if os != [] {
      var tail := os[1..];
      ChainStopsAtFirstAbort(tail);
      if !os[0].status.Aborted? {
        assert os[0].status == Completed;
        assert forall i :: 1 <= i < |os| ==> os[i] == tail[i - 1];
        if Chain(os).status.Aborted? {
          var i :| 0 <= i < |tail| && tail[i].status == Chain(os).status
            && forall j :: 0 <= j < i ==> tail[j].status == Completed;
          assert os[i + 1].status == Chain(os).status;
        }
      }
    }
  }

  /**
   * A legacy builder runs its single-entry builders in order and stops at the
   * first that aborts, with that builder's failure; it completes only when
   * every one of them completes.
   */
  lemma PerformEachStopsAtFirstAbort(bs: seq<Builder>, result: Option<BuildResult>, workspace: Path, w: World)
    requires !IsIntermediateFailure(result)
    requires forall i :: 0 <= i < |bs| ==> IsMigrated(bs[i])
    ensures var o := PerformEach(bs, result, workspace, w);
      && (o.status == Completed <==> forall i :: 0 <= i < |bs| ==> Perform(bs[i], result, workspace, w).status == Completed)
      && (o.status.Aborted? ==>
            exists i :: 0 <= i < |bs|
              && Perform(bs[i], result, workspace, w).status == o.status
              && forall j :: 0 <= j < i ==> Perform(bs[j], result, workspace, w).status == Completed)
  {
    var os := Outcomes(bs, result, workspace, w);
    PerformEachChains(bs, result, workspace, w);
    OutcomesNeverSkipped(bs, result, workspace, w);
    ChainStopsAtFirstAbort(os);
    forall i | 0 <= i < |bs| ensures os[i] == Perform(bs[i], result, workspace, w) {
      OutcomesAt(bs, result, workspace, w, i);
    }
  }

  /**
   * A builder read back from a pre-2.1 configuration signs each of its entries
   * as a builder of its own, with the builder-dir layout and zipalign on.
   */
  lemma LegacyBuilderRunsEachEntry(b: Builder, result: Option<BuildResult>, workspace: Path, w: World)
    requires !IsMigrated(b) && !IsIntermediateFailure(result)
    ensures var bs := SingleEntryBuilders(b);
      && Perform(b, result, workspace, w) == PerformEach(bs, result, workspace, w)
      && |bs| == |b.entries.value|
      && forall i :: 0 <= i < |bs| ==>
        && Perform(bs[i], result, workspace, w) == PerformMigrated(bs[i], workspace, w)
        && CarriesEntry(bs[i], b.entries.value[i])
        && bs[i].signedApkMapping == Some(UnsignedApkBuilderDirMapping)
        && !bs[i].skipZipalign
  {
  }
}

=== FILE: scenarios.dfy ===
/**
 * Cases the step's test suite checks, derived from the general model: glob
 * lists with repeated matches, the archive flags, blank tool locations and the
 * refused multi-entry constructor.
 */
module Scenarios {
  import opened Wrappers
  import opened JavaStrings
  import opened SelectionGlobs
  import opened PathSet
  import opened ArchiveManifest
  import opened BuilderConfig
  import opened Effects
  import opened SignApk
  import opened BuildStep
  import opened PerformProperties

  const TestApk: string := "SignApksBuilderTest.apk"
  const TestApkGlob: string := "*Test.apk"

  /** A comma followed by a blank separates globs like a bare comma. */
  lemma GlobsOfCommaSpaceJoin(a: string, b: string)
    ensures GetSelectionGlobs(a + ", " + b) == GetSelectionGlobs(a) + GetSelectionGlobs(b)
  {
    assert a + ", " + b == a + "," + ([' '] + b);
    GlobsOfCommaJoin(a, [' '] + b);
    GlobsIgnoreLeadingBlank(' ', b);
  }

  lemma TestGlobsAreClean()
    ensures IsCleanGlob(TestApk) && IsCleanGlob(TestApkGlob)
  {
    assert forall i :: 0 <= i < |TestApk| ==> TestApk[i] != ',';
    assert forall i :: 0 <= i < |TestApkGlob| ==> TestApkGlob[i] != ',';
  }

  /** The glob list of `doesNotMatchTheSameApkMoreThanOnce` is the two globs, blanks dropped. */
  lemma TwoGlobsFromList()
    ensures GetSelectionGlobs(TestApk + ", " + TestApkGlob) == [TestApk, TestApkGlob]
  {
    GlobsOfCommaSpaceJoin(TestApk, TestApkGlob);
    TestGlobsAreClean();
    GlobsOfCleanGlob(TestApk);
    GlobsOfCleanGlob(TestApkGlob);
  }

  /** An APK both globs match is selected, and so signed and archived, once. */
  lemma SameApkSelectedOnce(w: World, apk: Path)
    requires w.list(TestApk, BuilderDirExcludes) == [apk]
    requires w.list(TestApkGlob, BuilderDirExcludes) == [apk]
    ensures Select(w, GetSelectionGlobs(TestApk + ", " + TestApkGlob), []).result == Ok([apk])
  {
    TwoGlobsFromList();
    var globs := [TestApk, TestApkGlob];
    var once := InsertAll([], [apk]);
    var twice := InsertAll(once, [apk]);
    assert globs[1..] == [TestApkGlob] && globs[1..][1..] == [];
    assert Select(w, globs, []).result == Select(w, [TestApkGlob], once).result;
    assert Select(w, [TestApkGlob], once).result == Select(w, [], twice).result;
    AscendingUnique(twice, [apk]);
  }

  /** `a + x == a + y` only when `x == y`. */
  lemma SameHeadSameTail(a: string, x: string, y: string)
    requires a + x == a + y
    ensures x == y
  {
    assert x == (a + x)[|a|..];
    assert y == (a + y)[|a|..];
  }

  /**
   * `archivesTheSignedApk`, `archivesTheUnsignedApk`,
   * `archivesTheUnsignedAndSignedApks` and `archivesNothing`: one signed APK
   * whose signed name differs from its own name contributes one artifact per
   * archive flag that is set.
   */
  lemma OneApkArchiveFlags(r: Run, apk: Path)
    requires ProcessAll(r, [apk], []).failure.None?
    requires r.w.parent(SignedApkFor(r, r.w.absolutize(apk))).Some?
    requires r.w.name(r.w.absolutize(apk)) != r.w.name(SignedApkFor(r, r.w.absolutize(apk)))
    ensures |ProcessAll(r, [apk], []).manifest| ==
      (if r.archiveUnsignedApks then 1 else 0) + (if r.archiveSignedApks then 1 else 0)
  {
    var u := r.w.absolutize(apk);
    var first := ProcessApk(r, apk, []);
    assert [apk][1..] == [];
    assert ProcessAll(r, [apk], []).manifest == first.manifest;
    assert first.manifest == Recorded(r, u, []);
    var head := r.archivePrefix + r.w.name(u) + "/";
    assert UnsignedKey(r, u) == head + r.w.name(u);
    assert SignedKey(r, u) == head + r.w.name(SignedApkFor(r, u));
    if UnsignedKey(r, u) == SignedKey(r, u) {
      SameHeadSameTail(head, r.w.name(u), r.w.name(SignedApkFor(r, u)));
    }
    var m1 := if r.archiveUnsignedApks then Put([], UnsignedKey(r, u), r.w.relativeToWorkspace(u)) else [];
    assert |Keys(m1)| == if r.archiveUnsignedApks then 1 else 0;
    assert SignedKey(r, u) !in Keys(m1);
  }

  /**
   * Two selected APKs with the same file name in different directories share
   * their artifact names, and the archive keeps the later one's paths: its
   * `put`s replace the earlier values.
   */
  lemma SameNameLaterApkWins(r: Run, a1: Path, a2: Path)
    requires ProcessAll(r, [a1, a2], []).failure.None?
    requires var u1, u2 := r.w.absolutize(a1), r.w.absolutize(a2);
      && r.w.parent(SignedApkFor(r, u2)).Some?
      && r.w.name(u1) == r.w.name(u2)
      && r.w.name(SignedApkFor(r, u1)) == r.w.name(SignedApkFor(r, u2))
    ensures var u1, u2 := r.w.absolutize(a1), r.w.absolutize(a2);
      var m := ProcessAll(r, [a1, a2], []).manifest;
      && UnsignedKey(r, u1) == UnsignedKey(r, u2) && SignedKey(r, u1) == SignedKey(r, u2)
      && (r.archiveSignedApks ==>
            Get(m, SignedKey(r, u2)) == Some(r.w.relativeToWorkspace(SignedApkFor(r, u2))))
      && (r.archiveUnsignedApks && UnsignedKey(r, u2) != SignedKey(r, u2) ==>
            Get(m, UnsignedKey(r, u2)) == Some(r.w.relativeToWorkspace(u2)))
  {
    var u2 := r.w.absolutize(a2);
    var m := ProcessAll(r, [a1, a2], []).manifest;
    LoopManifest(r, [a1, a2]);
    var sk, uk := SignedKey(r, u2), UnsignedKey(r, u2);
    if r.archiveSignedApks {
      OwnKeysMember(r, u2, sk);
      LastApkDecides(r, [a1, a2], sk);
      assert Get(m, sk) == LastValue(r, [a1, a2], sk);
    }
    if r.archiveUnsignedApks && uk != sk {
      OwnKeysMember(r, u2, uk);
      LastApkDecides(r, [a1, a2], uk);
      assert Get(m, uk) == LastValue(r, [a1, a2], uk);
    }
  }

  const UnsignedTestApk: string := "SignApksBuilderTest-unsigned.apk"
  const SignedTestApk: string := "SignApksBuilderTest-signed.apk"

  /** A builder signing with the given key that archives both copies of what `apks` selects. */
  function ArchivingBuilder(keyStoreId: string, keyAlias: string, apks: string): Builder {
    NewBuilder().(keyStoreId := Some(keyStoreId), keyAlias := Some(keyAlias), apksToSign := Some(apks),
                  archiveSignedApks := true, archiveUnsignedApks := true)
  }

  /**
   * `multipleBuildersDoNotOverwriteArtifacts`: two builders with the same key,
   * one signing `SignApksBuilderTest.apk` into `SignApksBuilderTest-signed.apk`
   * and one signing `SignApksBuilderTest-unsigned.apk` into
   * `SignApksBuilderTest.apk`, archive four distinct artifacts, two under each
   * unsigned APK's name.
   */
  lemma TwoBuildersFourArtifacts(keyStoreId: string, keyAlias: string, keys: SigningComponents,
                                 workspace: Path, w: World, u1: Path, u2: Path)
    requires var r1 := RunFor(ArchivingBuilder(keyStoreId, keyAlias, TestApk), keys, workspace, w);
      && w.name(u1) == TestApk && w.name(SignedApkFor(r1, u1)) == SignedTestApk
      && w.parent(SignedApkFor(r1, u1)).Some?
    requires var r2 := RunFor(ArchivingBuilder(keyStoreId, keyAlias, UnsignedTestApk), keys, workspace, w);
      && w.name(u2) == UnsignedTestApk && w.name(SignedApkFor(r2, u2)) == TestApk
      && w.parent(SignedApkFor(r2, u2)).Some?
    ensures var r1 := RunFor(ArchivingBuilder(keyStoreId, keyAlias, TestApk), keys, workspace, w);
      var r2 := RunFor(ArchivingBuilder(keyStoreId, keyAlias, UnsignedTestApk), keys, workspace, w);
      var ns := ArchivePrefix(Some(keyStoreId), Some(keyAlias));
      && OwnKeys(r1, u1) == {ns + TestApk + "/" + TestApk, ns + TestApk + "/" + SignedTestApk}
      && OwnKeys(r2, u2) == {ns + UnsignedTestApk + "/" + UnsignedTestApk, ns + UnsignedTestApk + "/" + TestApk}
      && OwnKeys(r1, u1) !! OwnKeys(r2, u2)
      && |OwnKeys(r1, u1) + OwnKeys(r2, u2)| == 4
  {
    var r1 := RunFor(ArchivingBuilder(keyStoreId, keyAlias, TestApk), keys, workspace, w);
    var r2 := RunFor(ArchivingBuilder(keyStoreId, keyAlias, UnsignedTestApk), keys, workspace, w);
    var ns := ArchivePrefix(Some(keyStoreId), Some(keyAlias));
    var h1, h2 := ns + TestApk + "/", ns + UnsignedTestApk + "/";
    assert forall i :: 0 <= i < |TestApk| ==> TestApk[i] != '/';
    assert forall i :: 0 <= i < |UnsignedTestApk| ==> UnsignedTestApk[i] != '/';
    assert TestApk != UnsignedTestApk by { assert |TestApk| != |UnsignedTestApk|; }
    SameNamespaceApart(r1, u1, r2, u2);
    // within one builder, the unsigned and the signed copy differ in length
    assert |h1 + TestApk| != |h1 + SignedTestApk|;
    assert |h2 + UnsignedTestApk| != |h2 + TestApk|;
  }

  /** `setsEmptyStringsToNullForAndroidHomeAndZipalignPath`. */
  lemma BlankToolLocationsBecomeNull(b: Builder)
    ensures SetAndroidHome(b, Some("")).androidHome == None
    ensures SetAndroidHome(b, Some(" ")).androidHome == None
    ensures SetZipalignPath(b, Some("")).zipalignPath == None
    ensures SetZipalignPath(b, Some(" ")).zipalignPath == None
  {
    assert AllOf(" ", IsJavaWhitespace) by {
      assert IsJavaWhitespace(" "[0]);
    }
  }

  /** `doesNotSupportMultipleEntriesAnyMore`. */
  lemma TwoEntriesRefused(e1: ApkEntry, e2: ApkEntry)
    ensures LegacyBuilder([e1, e2]) == Err(MultipleEntriesMessage)
  {
  }

  /**
   * `builderIsNotMigratedIfItHasEntries` and `builderIsMigratedWhenEntriesIsNull`:
   * a builder with entries is migrated once they are cleared, and a new one is
   * migrated from the start.
   */
  lemma MigrationFollowsEntries(b: Builder, e: ApkEntry)
    ensures !IsMigrated(b.(entries := Some([e])))
    ensures IsMigrated(b.(entries := Some([])))
    ensures IsMigrated(NewBuilder())
  {
  }
}

=== FILE: selection_globs.dfy ===
/**
 * `getSelectionGlobs`: the builder's `apksToSign` setting, a comma-separated
 * list of Ant globs, cut into the glob patterns that are expanded one by one.
 *
 * The source splits on the regular expression `\s*,\s*` and then trims each
 * piece. Every character that regular expression swallows besides the comma
 * is whitespace at the edge of a piece, and `trim` would remove it anyway, so
 * the model splits on the bare comma and trims.
 */
module SelectionGlobs {
  import opened JavaStrings

  /** `String.trim`. */
  function Trim(s: string): string {
    Strip(s, IsTrimmable)
  }

  /** A pattern as `getSelectionGlobs` hands it out. */
  predicate IsCleanGlob(g: string) {
    && g != []
    && ',' !in g
    && Unpadded(g, IsTrimmable)
  }

  /** Trimming keeps the characters of an infix of the input. */
  lemma TrimKeepsCharacters(s: string, c: char)
    requires c !in s
    ensures c !in Trim(s)
  {
    var r := Trim(s);
    var lead := LeadLength(s, IsTrimmable);
    assert forall i :: 0 <= i < |r| ==> r[i] == s[lead + i];
  }

  /** Each piece trimmed, the empty ones dropped, order kept. */
  function CleanGlobs(pieces: seq<string>): (globs: seq<string>)
    requires forall i :: 0 <= i < |pieces| ==> ',' !in pieces[i]
    ensures |globs| <= |pieces|
    ensures forall i :: 0 <= i < |globs| ==> IsCleanGlob(globs[i])
  {
    if pieces == [] then []
    else
      var g := Trim(pieces[0]);
      TrimKeepsCharacters(pieces[0], ',');
      (if g == [] then [] else [g]) + CleanGlobs(pieces[1..])
  }

  /** `getSelectionGlobs(apksToSign)`. */
  function GetSelectionGlobs(value: string): (globs: seq<string>)
    ensures forall i :: 0 <= i < |globs| ==> IsCleanGlob(globs[i])
    ensures |globs| <= |SplitOn(value, ',')|
  {
    CleanGlobs(SplitOn(value, ','))
  }

  lemma {:induction false} CleanGlobsAppend(a: seq<string>, b: seq<string>)
    requires forall i :: 0 <= i < |a| ==> ',' !in a[i]
    requires forall i :: 0 <= i < |b| ==> ',' !in b[i]
    ensures CleanGlobs(a + b) == CleanGlobs(a) + CleanGlobs(b)
  {
    if a == [] {
      assert a + b == b;
    } else {
      assert (a + b)[0] == a[0];
      assert (a + b)[1..] == a[1..] + b;
      CleanGlobsAppend(a[1..], b);
    }
  }

  /** A comma separates independent lists: the globs of each side, in order. */
  lemma GlobsOfCommaJoin(a: string, b: string)
    ensures GetSelectionGlobs(a + "," + b) == GetSelectionGlobs(a) + GetSelectionGlobs(b)
  {
    assert a + "," + b == a + [','] + b;
    SplitOnConcat(a, b, ',');
    CleanGlobsAppend(SplitOn(a, ','), SplitOn(b, ','));
  }

  /** A text without a comma is one glob when it is not blank, and none when it is. */
  lemma GlobsOfOnePiece(s: string)
    requires ',' !in s
    ensures Trim(s) == [] ==> GetSelectionGlobs(s) == []
    ensures Trim(s) != [] ==> GetSelectionGlobs(s) == [Trim(s)]
  {
    SplitOnNoSeparator(s, ',');
  }

  /** Trimming ignores a blank character in front. */
  lemma TrimIgnoresLeadingBlank(c: char, s: string)
    requires IsTrimmable(c)
    ensures Trim([c] + s) == Trim(s)
  {
    var r := Trim(s);
    var lead := LeadLength(s, IsTrimmable);
    var t := [c] + s;
    assert t[lead + 1..lead + 1 + |r|] == s[lead..lead + |r|];
    assert t[..lead + 1] == [c] + s[..lead];
    assert t[lead + 1 + |r|..] == s[lead + |r|..];
    StripUnique(t, r, lead + 1, IsTrimmable);
  }

  /** Blanks before the first glob make no difference. */
  lemma {:induction false} GlobsIgnoreLeadingBlank(c: char, s: string)
    requires IsTrimmable(c)
    ensures GetSelectionGlobs([c] + s) == GetSelectionGlobs(s)
  {
    var t := [c] + s;
    assert t[1..] == s;
    TrimIgnoresLeadingBlank(c, SplitOn(s, ',')[0]);
    var pieces := SplitOn(s, ',');
    assert SplitOn(t, ',') == [[c] + pieces[0]] + pieces[1..];
    assert pieces == [pieces[0]] + pieces[1..];
  }

  /** A clean glob read on its own is itself. */
  lemma GlobsOfCleanGlob(g: string)
    requires IsCleanGlob(g)
    ensures GetSelectionGlobs(g) == [g]
  {
    assert g[..0] == [] && g[0 + |g|..] == [];
    StripUnique(g, g, 0, IsTrimmable);
    GlobsOfOnePiece(g);
  }

  /**
   * Round trip: clean globs written as the configuration form shows them,
   * separated by ", ", come back unchanged and in order.
   */
  lemma {:induction false} GlobsRoundTrip(globs: seq<string>)
    requires forall i :: 0 <= i < |globs| ==> IsCleanGlob(globs[i])
    ensures GetSelectionGlobs(JoinWith(globs, ", ")) == globs
  {
    if |globs| == 0 {
      GlobsOfOnePiece([]);
    } else if |globs| == 1 {
      GlobsOfCleanGlob(globs[0]);
    } else {
      var g := globs[0];
      var rest := JoinWith(globs[1..], ", ");
      assert JoinWith(globs, ", ") == g + ", " + rest;
      assert g + ", " + rest == g + "," + ([' '] + rest);
      GlobsOfCommaJoin(g, [' '] + rest);
      GlobsIgnoreLeadingBlank(' ', rest);
      GlobsRoundTrip(globs[1..]);
      GlobsOfCleanGlob(g);
      assert globs == [g] + globs[1..];
    }
  }

  /** Re-reading the parsed globs yields them again. */
  lemma GlobsIdempotent(value: string)
    ensures GetSelectionGlobs(JoinWith(GetSelectionGlobs(value), ", ")) == GetSelectionGlobs(value)
  {
    GlobsRoundTrip(GetSelectionGlobs(value));
  }
}

=== FILE: sign_apk.dfy ===
/**
 * `SignApkCallable.invoke`: sign one aligned APK into its destination with the
 * key material read from the key store credential.
 */
module SignApk {
  import opened Wrappers
  import opened Effects

  /** `SigningComponents`: the private key, its certificate chain and the v1 signer name. */
  datatype SigningComponents = SigningComponents(key: string, certChain: seq<string>, v1SigName: string)

  /** The file system and the signing library, as seen from the node that holds the APK. */
  datatype SignerWorld = SignerWorld(
      /** `File.isFile`. */
    isFile: Path -> bool,
      /** `File.delete`: whether the file went away. */
    delete: Path -> bool,
      /** `ApkSigner.sign`: the message of the exception it throws, or null when it returns. */
    sign: SignRequest -> Option<string>)

  datatype SignFailure =
    | PreviousSignedUndeletable(outputApk: Path)
    | SigningFailed(inputApk: Path, detail: string)

  datatype SignOutcome = SignOutcome(trace: seq<Effect>, failure: Option<SignFailure>)

  /** The signer the callable builds: one signer config, all schemes on, old signatures dropped. */
  predicate IsRequestFor(req: SignRequest, c: SigningComponents, inputApk: Path, outputApk: Path) {
    && req.signerConfigs == [SignerConfig(c.v1SigName, c.key, c.certChain)]
    && req.inputApk == inputApk
    && req.outputApk == outputApk
    && !req.otherSignersSignaturesPreserved
    && req.v1SigningEnabled && req.v2SigningEnabled && req.v3SigningEnabled
  }

  /** The number of times the signer is asked in `t`. */
  function SignCount(t: seq<Effect>): nat {
    if t == [] then 0 else (if t[0].SignApk? then 1 else 0) + SignCount(t[1..])
  }

  function RequestFor(c: SigningComponents, inputApk: Path, outputApk: Path): (req: SignRequest)
    ensures IsRequestFor(req, c, inputApk, outputApk)
  {
    SignRequest([SignerConfig(c.v1SigName, c.key, c.certChain)], inputApk, outputApk, false, true, true, true)
  }

  /**
   * `invoke(inputApk)` for a callable made with key material `c` and output
   * `outputApk`. A stale output file is deleted first and an undeletable one
   * aborts; the signer is then asked once, and any exception it throws aborts.
   */
  function Invoke(c: SigningComponents, outputApk: Path, inputApk: Path, w: SignerWorld): (r: SignOutcome)
    ensures forall i :: 0 <= i < |r.trace| ==> r.trace[i].DeletePreviousSigned? || r.trace[i].SignApk?
    ensures forall i :: 0 <= i < |r.trace| && r.trace[i].SignApk? ==>
      IsRequestFor(r.trace[i].request, c, inputApk, outputApk)
    ensures forall i :: 0 <= i < |r.trace| && r.trace[i].DeletePreviousSigned? ==>
      i == 0 && r.trace[i].path == outputApk
    ensures DeletePreviousSigned(outputApk) in r.trace <==> w.isFile(outputApk)
    ensures r.failure == Some(PreviousSignedUndeletable(outputApk)) <==> w.isFile(outputApk) && !w.delete(outputApk)
    ensures SignApk(RequestFor(c, inputApk, outputApk)) in r.trace <==> !(w.isFile(outputApk) && !w.delete(outputApk))
    ensures r.failure.None? <==>
      SignApk(RequestFor(c, inputApk, outputApk)) in r.trace && w.sign(RequestFor(c, inputApk, outputApk)).None?
    ensures r.failure.Some? && r.failure.value.SigningFailed? ==>
      r.failure.value == SigningFailed(inputApk, w.sign(RequestFor(c, inputApk, outputApk)).value)
    ensures r.trace ==
      (if w.isFile(outputApk) then [DeletePreviousSigned(outputApk)] else [])
      + (if w.isFile(outputApk) && !w.delete(outputApk) then [] else [SignApk(RequestFor(c, inputApk, outputApk))])
  {
    var deletion := if w.isFile(outputApk) then [DeletePreviousSigned(outputApk)] else [];
    if w.isFile(outputApk) && !w.delete(outputApk) then
      SignOutcome(deletion, Some(PreviousSignedUndeletable(outputApk)))
    else
      var req := RequestFor(c, inputApk, outputApk);
      var trace := deletion + [SignApk(req)];
      match w.sign(req)
      case Some(detail) => SignOutcome(trace, Some(SigningFailed(inputApk, detail)))
      case None => SignOutcome(trace, None)
  }

  /**
   * The signer is asked exactly once, unless a stale output cannot be deleted,
   * and then never; at most one file is deleted, before signing.
   */
  lemma InvokeSignsOnce(c: SigningComponents, outputApk: Path, inputApk: Path, w: SignerWorld)
    ensures var r := Invoke(c, outputApk, inputApk, w);
      SignCount(r.trace) == if w.isFile(outputApk) && !w.delete(outputApk) then 0 else 1
  {
    var r := Invoke(c, outputApk, inputApk, w);
    if w.isFile(outputApk) {
      // the deletion is not a signing; only what follows it can be
      assert SignCount(r.trace) == SignCount(r.trace[1..]);
      assert r.trace[1..] == (if !w.delete(outputApk) then [] else [SignApk(RequestFor(c, inputApk, outputApk))]);
    }
  }
}

=== FILE: wrappers.dfy ===
/** Java's nullable references and thrown exceptions, as values. */
module Wrappers {

  /** A possibly-null reference: `None` plays the role of Java's `null`. */
  datatype Option<+T> = None | Some(value: T)

  /** The outcome of a call that either returns a value or throws. */
  datatype Result<+T, +E> = Ok(value: T) | Err(error: E)
}
